=== FILE: README.md ===
# ALCOVE chat — a Dafny model of its core logic

ALCOVE is a small messenger:

- a Node/Express server keeps chats and messages in memory;
- a React client shows a chat list, a conversation, a user search and a composer that can also record voice notes;
- the client also supports one-to-one video calls, with call state kept in a context provider and signals exchanged over a socket;
- a second, stand-alone front end talks to a mock API service instead of the server.

This project models the parts of that system that are logic rather than I/O.

- **Call state machine** (`CallSession`). It holds the call record, the accepted and ended flags, whether a media stream and a peer connection are held, the video and audio flags, and whether a `call-accepted` listener is registered. Each handler returns the next state and the wire events it emits (`call-user`, `answer-call`, `call-ended`). Several rules are proved:
  - A resource invariant (`Consistent`) holds on every run.
  - Socket events alone never make the client emit anything.
  - Every `call-ended` the client sends answers one of the user's own hang-ups.
- **Call overlays** (`CallOverlays`). The incoming-call prompt and the in-call window are predicates of the call state. They are never shown together, and neither is shown after a call is left. The caller's peer trickles its signals: the offer first, then ICE candidates. A handshake is proved end to end through an ideal relay that forwards each payload unchanged, for any non-empty run of trickled signals and any non-empty run of answer signals the callee is assumed to produce. For the program as written, `CallOverlays.TrickledCallStalls` shows the other side: once two or more signals have gone out, the callee's peer is fed the last one, a candidate, and never the offer. Such a peer produces no answer, so the callee's in-call window opens while the caller's never does.
- **Chat list and message list updates** (`ChatList`, `ChatPage`, `RootApp`). These cover:
  - moving a chat to the front on a new message;
  - appending live messages to the open chat;
  - the optimistic send, which appends a temporary message and then replaces it by id or removes it;
  - prepending a started chat only if it is new;
  - selection and search-box clearing;
  - choosing the chat partner.
- **In-memory store** (`MessageStore`, `Server`, `MockApi`). This covers `POST /api/messages`: validation, append-or-create, and the last-message update. It also covers the newest-first `GET /api/chats`, `GET /api/messages/:chatId` with its empty default, and the mock service, whose `createMessage` does not persist.
- **Composers** (`ChatInput`, `BasicChatInput`). These cover trim-then-send, the disabled send button, the `mm:ss` recording timer with a read-back round trip, and the recorder toggling and chunk buffering.
- **Helpers** (`Text`, `Domain`). `Text` models JavaScript's `trim` (the ECMAScript white-space set), non-negative `toString` and `padStart(2, '0')`. `Domain` holds the entities and the `temp-`/`msg-` id schemes.

Asynchronous handlers are split into a begin and a finish phase. Whatever arrives asynchronously is a parameter of the finish phase: a saved message or failure, a created chat, search results, or a media-capture outcome. The clock is a `now: nat` parameter in milliseconds.

## Behaviour worth knowing

- **No relay on the server.** The server has no session registry, fan-out or signaling relay (`server/server.js:86` says WebSocket push is not implemented). Wire events therefore exist only as values the client emits. `CallOverlays.CallHandshake` assumes an ideal relay (`CallOverlays.Relay`) that forwards each payload unchanged.
- **Only the last trickled signal is kept.** The caller's peer trickles its signals (the offer, then ICE candidates), and each one goes out as its own `call-user` event. Each arriving `call-incoming` replaces the pending call, so the callee holds only the LAST signal when it answers, and `answerCall` feeds only that one to its peer (`client/src/context/WebRTCContext.tsx:111`). With two or more signals this is a candidate, not the offer, and the call cannot connect (`CallOverlays.RingsWithLastOffer`, `CallOverlays.TrickledCallStalls`).
- **`chatId` is optional.** `Message.chatId` is an `Option`: the live-message handler reads it, but the server creates messages without one (`server/server.js:66-72`).
- **The accept listener is never removed.** The `call-accepted` listener is registered on every successful `callUser`, and nothing removes it. A late acceptance after hanging up therefore sets `callAccepted` again, and the prompt for the next incoming call is then hidden (`CallOverlays.LateAcceptHidesNextInvite`).
- **Media is acquired before the guard.** `callUser` and `answerCall` acquire media before checking the socket, the user or the call, so a stream can be held even when the call does not proceed.
- **The recorder can get stuck.** `startRecording` marks the component as recording before building the recorder. If building fails and no earlier recorder exists, the mark stays set and every later click of the mic button changes nothing (`ChatInput.RecorderFailureSticks`).

## Model

| member | source | states |
|---|---|---|
| CallSession.ReceiveCallIncoming | client/src/context/WebRTCContext.tsx:38-43 | while a socket and a user are present, an invite becomes the pending call `{isReceivingCall: true, from, signal}` and no other field changes; nothing is emitted |
| CallSession.OfferEvents | client/src/context/WebRTCContext.tsx:70-76 | one `call-user` event per trickled signal (the offer, then candidates), in order, addressed to the callee and from the signed-in user |
| CallSession.AnswerEvents | client/src/context/WebRTCContext.tsx:101-103 | one `answer-call` event per answer signal, in order, addressed to the caller |
| CallSession.CallUser | client/src/context/WebRTCContext.tsx:56-90 | without media, a socket or a user, the call, accepted and ended flags and the peer are unchanged and nothing is emitted; with media the stream is held; on success the call is not ended, the callee is the pending outgoing call, `callAccepted` is untouched, a peer and accept listener exist, and the emitted events are exactly one `call-user` per trickled signal, in order, to the callee from the user, carrying that signal; the video and audio flags are untouched, and without a socket or user so is the accept listener |
| CallSession.ReceiveCallAccepted | client/src/context/WebRTCContext.tsx:84-87 | once a listener is registered, an acceptance sets `callAccepted` and changes nothing else |
| CallSession.AnswerCall | client/src/context/WebRTCContext.tsx:92-113 | a no-op for the call without media, a socket or a pending call; otherwise accepted, not ended, a peer held, and every answer signal sent to the caller's id; the video and audio flags and the accept listener are untouched |
| CallSession.LeaveCall | client/src/context/WebRTCContext.tsx:115-132 | from any state: ended, not accepted, no call, no peer, no stream; exactly one `call-ended` to the other party iff `emitEvent`, a socket and a call |
| CallSession.ReceiveCallEnded | client/src/context/WebRTCContext.tsx:45-47 | a remote hang-up leaves the call in the same state as a local one but emits nothing |
| CallSession.DeclineCall | client/src/context/WebRTCContext.tsx:134-137 | only the pending call is cleared; nothing is sent |
| CallSession.ToggleVideo | client/src/context/WebRTCContext.tsx:139-144 | with a stream, exactly the video flag flips; without one nothing changes |
| CallSession.ToggleAudio | client/src/context/WebRTCContext.tsx:146-151 | with a stream, exactly the audio flag flips; without one nothing changes |
| CallSession.ApplyKeepsConsistent | client/src/context/WebRTCContext.tsx:41-151 | every handler preserves the invariant: a peer implies a stream, and a live accepted or awaited call holds a peer |
| CallSession.RunKeepsConsistent | client/src/context/WebRTCContext.tsx:41-151 | the invariant holds after any sequence of events and user actions |
| CallSession.RemoteEventsAreSilent | client/src/context/WebRTCContext.tsx:41-47 | any sequence of socket events alone emits nothing, so a received `call-ended` is never echoed |
| CallSession.CallEndedOnlyOnHangUp | client/src/context/WebRTCContext.tsx:115-123 | over any run, the number of `call-ended` events emitted is at most the number of user hang-ups |
| CallOverlays.ShowIncomingCall | client/src/App.tsx:37 | the incoming-call prompt: a pending call that is being received and not yet accepted |
| CallOverlays.ShowCallModal | client/src/App.tsx:38-40 | the in-call window: a stream is held and the call is accepted and not ended |
| CallOverlays.OverlaysExclusive | client/src/App.tsx:37-40 | the incoming-call prompt and the in-call window are never shown together |
| CallOverlays.NoOverlayAfterLeave | client/src/App.tsx:37-40 | after a local or remote hang-up neither overlay is shown |
| CallOverlays.ModalHoldsPeer | client/src/App.tsx:38-40 | in every state reachable from the initial one, the in-call window is shown only while a peer connection is held |
| CallOverlays.RingsWithLastOffer | client/src/context/WebRTCContext.tsx:41-43 | relayed one by one, any non-empty run of trickled signals leaves the callee with the caller as the pending call and only the last signal; nothing else changes |
| CallOverlays.AcceptedByAnswers | client/src/context/WebRTCContext.tsx:84-87 | with the accept listener registered, any non-empty run of relayed answers sets `callAccepted` and nothing else |
| CallOverlays.DialRings | client/src/context/WebRTCContext.tsx:56-76 | a successful dial emits one `call-user` per trickled signal to the callee; relayed, they make the callee show the prompt with the caller and the last signal |
| CallOverlays.AnswerConnects | client/src/context/WebRTCContext.tsx:92-113 | answering a ringing call sends every answer to the caller; the callee shows the in-call window and, once the answers arrive, so does the caller |
| CallOverlays.CallHandshake | client/src/context/WebRTCContext.tsx:56-113 | for any non-empty run of trickled signals and any non-empty run of answers taken as given, relayed unchanged: the callee rings with the caller's identity and the last signal, every answer goes to the caller, and both sides end in the in-call window without the prompt |
| CallOverlays.TrickledCallStalls | client/src/context/WebRTCContext.tsx:41-111 | after two or more trickled signals the callee holds the last one, never the first (the offer) when they differ; answering with no answer signal opens the callee's in-call window, sends the caller nothing, and leaves the caller as dialling left it, without the window unless already accepted |
| CallOverlays.HangUpAddressesOtherParty | client/src/context/WebRTCContext.tsx:115-123 | hanging up a dialled call notifies the callee; hanging up an answered call notifies the caller |
| CallOverlays.LateAcceptHidesNextInvite | client/src/context/WebRTCContext.tsx:84-87 | an acceptance arriving after hang-up leaves `callAccepted` set, so the next invite is recorded but no prompt is shown |
| Text.Trim | components/ChatInput.tsx:14 | `trim` yields the middle slice of the input with only white space cut from both ends, and is empty iff the input is all white space |
| Text.TrimIdempotent | client/src/components/ChatInput.tsx:74-75 | trimming a trimmed string changes nothing |
| Text.NatToString | client/src/components/ChatInput.tsx:87-88 | decimal digits without a leading zero whose value is the number; one digit below 10, at most two below 100 |
| Text.NatToStringInjective | client/src/pages/ChatPage.tsx:140 | different numbers render differently |
| Text.PadStart2 | client/src/components/ChatInput.tsx:87-88 | padding keeps the input as a suffix, reaches length two, and keeps the digits' value |
| Domain.TempId | client/src/pages/ChatPage.tsx:140 | a temporary id starts with `temp-` |
| Domain.ServerId | server/server.js:67 | a server id starts with `msg-` |
| Domain.TempIdNotServerId | client/src/pages/ChatPage.tsx:140-153 | a temporary id never equals a server id, so replacing by temporary id never hits a saved message |
| Domain.TempIdInjective | client/src/pages/ChatPage.tsx:140 | temporary ids from different milliseconds differ |
| ChatList.Find | client/src/pages/ChatPage.tsx:59 | `find` gives the first position with the key, or none iff no element has it |
| ChatList.Drop | client/src/pages/ChatPage.tsx:67 | `filter` by id keeps no element with that id and never grows the list |
| ChatList.DropConcat | client/src/pages/ChatPage.tsx:67 | filtering a concatenation filters each part and keeps them in order |
| ChatList.DropOne | client/src/pages/ChatPage.tsx:67 | a single element is kept iff its key differs; with `DropConcat` this pins `Drop` down as the order- and duplicate-preserving filter |
| ChatList.DropMembers | client/src/pages/ChatPage.tsx:67 | an element survives the filter iff it was present and its key differs |
| ChatList.MoveToFront | client/src/pages/ChatPage.tsx:58-69 | an unknown id leaves the list unchanged; otherwise the first match, with its new last message, comes first, the chats before it keep their order, and later duplicates of the id are dropped |
| ChatList.MoveToFrontRotates | client/src/pages/ChatPage.tsx:62-68 | with unique ids the move is a rotation: same length, same chats apart from the updated one, others in order |
| ChatList.SetLastMessage | server/server.js:81-84 | only the first chat with the id gets the new last message; an unknown id changes nothing |
| ChatList.PrependIfNew | client/src/pages/ChatPage.tsx:182-191 | exactly `[c] + chats` when the id is new, the list unchanged otherwise; the id is listed afterwards and unique ids stay unique |
| ChatList.ReplaceById | client/src/pages/ChatPage.tsx:153 | same length; exactly the entries with the id become the saved message |
| ChatList.RemoveById | client/src/pages/ChatPage.tsx:165 | it is the order-preserving filter `Drop` on message ids; an entry remains iff it was present and does not carry the id |
| ChatList.ReplaceFreshEntry | client/src/pages/ChatPage.tsx:148-153 | replacing a temporary entry whose id is unique puts the saved message in its place and leaves the rest as they were |
| ChatList.RemoveFreshEntry | client/src/pages/ChatPage.tsx:148-165 | removing a temporary entry whose id is unique restores the list around it |
| ChatList.ServerIdsLeaveTempFree | client/src/pages/ChatPage.tsx:140-153 | a history whose messages all carry server ids has no entry with any temporary id, so the fresh-entry lemmas apply to it |
| ChatList.FirstOther | client/src/pages/ChatPage.tsx:199-201 | the first user whose id differs from the signed-in one, or none iff every user has that id |
| ChatList.InsertByTime | server/server.js:50 | inserting into a newest-first list keeps it newest first and adds exactly the one chat |
| ChatList.SortNewestFirst | server/server.js:50 | the result is newest first and a permutation of the input |
| MessageStore.MessagesOf | server/server.js:56 | the stored list for a known chat, the empty list for an unknown one |
| Server.Accepts | server/server.js:62 | the validation: a truthy chat id and sender id, and a truthy text or an audio object |
| Server.PostMessage | server/server.js:59-89 | 400 iff the chat id, the sender id, or both text and audio are missing; a rejection changes nothing; an accepted message carries the sender, the audio, the request's text exactly when it is non-empty, and at least one of them |
| Server.PostAppends | server/server.js:75-79 | the new message is appended to its chat's list, or forms a new one; every other chat's list is untouched |
| Server.PostUpdatesLastMessage | server/server.js:81-84 | with unique ids, only the named chat's last message changes and the list keeps its order |
| Server.PostUnknownChat | server/server.js:81-84 | a message for an unlisted chat leaves the chat list unchanged |
| Server.PostThenListFirst | server/server.js:49-84 | after a post newer than every last message, the newest-first listing starts with that chat |
| Server.GetChats | server/server.js:49-52 | all chats, newest first, as a permutation of the store's list, which keeps its order |
| Server.GetMessages | server/server.js:54-57 | the stored list, or the empty list for an unknown chat |
| MockApi.GetChats | services/mockApiService.ts:43-57 | all chats newest first, as a permutation; the store keeps its order |
| MockApi.GetMessages | services/mockApiService.ts:59-69 | the stored messages in order and count, or none for an unknown chat |
| MockApi.CreateMessage | services/mockApiService.ts:71-83 | a message with the given text and sender; the store is unchanged |
| ChatPage.OnNewMessage | client/src/pages/ChatPage.tsx:55-74 | an unknown chat leaves the list unchanged; a known one moves to the front with the message as its last, followed by the chats before it and then the later ones without its id, each in order and otherwise unchanged; the message is appended iff it is for the open chat; search and selection are untouched |
| ChatPage.NewMessageRotates | client/src/pages/ChatPage.tsx:58-69 | with unique ids, a live message rotates its chat to the front and keeps the length and the others' order |
| ChatPage.TempMessage | client/src/pages/ChatPage.tsx:140-146 | the optimistic entry: the temporary id, the content, the time and the user as sender |
| ChatPage.BeginSend | client/src/pages/ChatPage.tsx:137-148 | no selection or no user: nothing happens; otherwise exactly `TempMessage(user, content, now)` is appended: id `temp-<now>`, the user as sender, the content, timestamp `now` and no chat id; chats, selection and search are untouched |
| ChatPage.FinishSend | client/src/pages/ChatPage.tsx:150-167 | success replaces exactly the temporary-id entries and makes the chat list `[updated, ...others in order]`, or leaves it unchanged if the chat is absent; failure yields exactly the message list filtered of the temporary id, order and duplicates kept, and keeps the chat list |
| ChatPage.SendAlwaysRejected | client/src/pages/ChatPage.tsx:151 | the request this page sends has the content in the `senderId` slot and no text or audio, so whatever `senderId` becomes the server answers 400 and the store is unchanged |
| ChatPage.FinishSendTouchesOnlyTemp | client/src/pages/ChatPage.tsx:153-165 | with live messages arriving around it, success puts the saved message in the temporary entry's place and failure takes it out; nothing else moves |
| ChatPage.SendRoundTrip | client/src/pages/ChatPage.tsx:137-167 | a failed send restores messages and chats; a successful one adds exactly the saved message |
| ChatPage.SelectChat | client/src/pages/ChatPage.tsx:170-177 | opens the chat and clears the search query and results |
| ChatPage.LoadMessages | client/src/pages/ChatPage.tsx:116-135 | with a selection, the list becomes the fetched messages, or empty if the fetch failed; chats, selection and search are untouched |
| ChatPage.StartChat | client/src/pages/ChatPage.tsx:179-197 | the created chat is prepended iff its id is new and becomes the open chat, with the search box and results cleared and the messages and searching flag untouched; failure changes nothing |
| ChatPage.SearchQueryChanged | client/src/pages/ChatPage.tsx:85-96 | a white-space-only query empties the results and stops searching; any other query starts searching and keeps the results |
| ChatPage.SearchFinished | client/src/pages/ChatPage.tsx:97-107 | results replace the old ones on success; searching stops either way; the query, chats, messages and selection are untouched |
| ChatPage.SelectEndsSearch | client/src/pages/ChatPage.tsx:170-173 | after selecting a chat, the search effect leaves no search running and no results |
| ChatPage.ChatPartner | client/src/pages/ChatPage.tsx:199-201 | none without a selection or when the chat is not listed; otherwise the first member whose id differs from the signed-in user's (the first member when nobody is signed in), and none iff every member is the user |
| RootApp.BeginSend | App.tsx:87-101 | no selection: nothing happens; otherwise exactly one temporary text message is appended, with id `temp-<now>`, sender `user-0`, the text, no audio, timestamp `now` and no chat id |
| RootApp.FinishSend | App.tsx:103-127 | success replaces exactly the temporary entries and moves the chat to the front, or leaves the list unchanged if the chat is absent; failure yields exactly the message list filtered of the temporary id, order kept |
| RootApp.SendWithMockService | App.tsx:87-117 | with the mock service, the saved message (same text, sender `user-0`) takes the temporary one's place and the chat rotates to the front |
| RootApp.FailedSendRestores | App.tsx:122-127 | a failed send leaves the page exactly as before the send |
| RootApp.SelectChat | App.tsx:131-136 | opens the chat and changes nothing else |
| RootApp.ChatPartner | App.tsx:138-139 | none without a selection or when the chat is not listed; otherwise the first member other than `user-0`, and none iff every member is `user-0` |
| ChatInput.Submit | client/src/components/ChatInput.tsx:72-78 | sends `{text: trim(text)}` and clears the box iff the text is not all white space; otherwise sends nothing and keeps the text |
| ChatInput.FormatTime | client/src/components/ChatInput.tsx:86-90 | at least two digits of minutes worth `seconds / 60`, a colon, and exactly two digits worth `seconds % 60`; below 100 minutes the minutes are exactly two digits, so the display is five characters; a longer minutes field has no leading zero |
| ChatInput.FormatTimeRoundTrip | client/src/components/ChatInput.tsx:86-90 | reading the display back as minutes and seconds gives the elapsed seconds |
| ChatInput.StartRecording | client/src/components/ChatInput.tsx:17-55 | a refused microphone changes nothing; otherwise recording is marked with the timer at zero, even when building the recorder fails |
| ChatInput.StopRecording | client/src/components/ChatInput.tsx:57-62 | recording stops only when a recorder exists; the recorder, buffer and timer are untouched |
| ChatInput.MicClick | client/src/components/ChatInput.tsx:64-70 | a click stops while recording and starts otherwise; a stop leaves the timer and buffer untouched |
| ChatInput.MicClickToggles | client/src/components/ChatInput.tsx:57-70 | once a recorder exists, a click with a successful start flips recording, and two clicks restore it |
| ChatInput.RecorderFailureSticks | client/src/components/ChatInput.tsx:17-70 | if the first recorder cannot be built, recording stays marked and no sequence of later clicks changes anything |
| ChatInput.OnDataAvailable | client/src/components/ChatInput.tsx:30-34 | only chunks with data are buffered |
| ChatInput.OnRecorderStopped | client/src/components/ChatInput.tsx:36-48 | stopping sends the audio as a voice message and empties the buffer |
| ChatInput.BufferedChunksNonEmpty | client/src/components/ChatInput.tsx:30-34 | whatever is delivered, the buffer holds only chunks with data |
| BasicChatInput.Submit | components/ChatInput.tsx:12-18 | sends `trim(text)` and clears iff the text is not all white space; otherwise nothing changes |
| BasicChatInput.SubmitDisabled | components/ChatInput.tsx:39 | the send button is disabled while the trimmed text is empty |
| BasicChatInput.DisabledIffNothingSent | components/ChatInput.tsx:39 | the send button is disabled iff submitting would send nothing |

## Left out

- Socket lifecycle (`client/src/context/SocketContext.tsx`), the fetch wrappers and error handling (`client/src/services/apiService.ts`) and the localStorage login (`client/src/context/AuthContext.tsx`): network and storage I/O.
- Media capture, simple-peer, `MediaRecorder`, `FileReader` and audio playback: foreign APIs. Their outcomes are parameters: media ok or not, signals as opaque blobs, a data URL.
- Asynchrony: timers, debouncing, stale closures and React's batching. Each handler is one atomic transition. The `call-accepted` listener registered once per call is one boolean, so stacking several listeners is not modelled.
- The recording timer's one-second ticks and `clearInterval`: clock-driven.
- ChatPage.FinishSend: ChatPage calls `createMessage(selectedChatId, content)` (`client/src/pages/ChatPage.tsx:151`), but the client API takes `(chatId, senderId, content)` (`client/src/services/apiService.ts:21`). The content object becomes `senderId` and no text or audio is sent, so `server/server.js:62` answers 400 to every send from this page (`ChatPage.SendAlwaysRejected`). Against this server the success branch is never taken. The save is modelled only as its outcome, a saved message or a failure, so the success branch stays as the code intends it.
- `isLoading`, the error-message state and the notification sound: they do not affect the modelled state.
- CallOverlays.CallHandshake: the answer signals are taken as a parameter, although in the program the callee's peer is fed only the last trickled signal. After two or more signals that is an ICE candidate, and a non-initiating peer produces no answer without the offer. The end-to-end claim therefore holds for the program only when the caller sends a single signal; `CallOverlays.TrickledCallStalls` states what happens otherwise.
- CallOverlays.CallHandshake: `server/server.js` serves only HTTP endpoints and leaves WebSocket push as future work (line 86), so no code relays the call events; the handshake is proved only through `CallOverlays.Relay`, which delivers every event, unchanged and in order, to its addressee.
- Rendering components, configs and `Date`/locale formatting of timestamps. Timestamps are integer milliseconds.
- ChatPage.StartChat: the default timestamp `new Date()` for a created chat without one is not modelled; the chat is prepended as received.
- ChatList.SortNewestFirst: the order among chats with equal timestamps is not stated. The model inserts stably, like the JavaScript sort, but no contract says so.
- Server.PostMessage: JSON field types are assumed well formed. Absent, `null` and `undefined` fields all map to `None`, and any present audio object counts as truthy.
- MessageStore.MessagesOf: keys that collide with JavaScript object-prototype members are not modelled; the store is a plain map.
- Domain.TempId: two sends within the same millisecond get the same temporary id. The lemmas about replacing and removing temporary entries therefore require the id to be fresh.
- Text.Trim: white space is the ECMAScript WhiteSpace and LineTerminator set as listed in `Text.IsSpace`. Unicode category Zs is taken as of current Unicode.

=== FILE: call_overlays.dfy ===
/**
 * The two call overlays the application shell renders from the call
 * context: the incoming-call prompt and the in-call window.
 */
module CallOverlays {
  import opened Options
  import opened CallSession

  /** The incoming-call prompt: a pending call that is being received and not yet accepted. */
  predicate ShowIncomingCall(s: CallState) {
    s.call.Some? && s.call.value.isReceivingCall && !s.callAccepted
  }

  /** The in-call window: a stream is held and the call is accepted and not ended. */
  predicate ShowCallModal(s: CallState) {
    s.hasStream && s.callAccepted && !s.callEnded
  }

  /** Neither overlay is ever shown together with the other. */
  lemma OverlaysExclusive(s: CallState)
    ensures !(ShowIncomingCall(s) && ShowCallModal(s))
  {
  }

  /** After leaving a call, for whatever reason, no overlay is shown. */
  lemma NoOverlayAfterLeave(s: CallState, env: Env, emitEvent: bool)
    ensures !ShowIncomingCall(LeaveCall(s, env, emitEvent).state)
    ensures !ShowCallModal(LeaveCall(s, env, emitEvent).state)
    ensures Listening(env) ==> !ShowIncomingCall(ReceiveCallEnded(s, env).state) && !ShowCallModal(ReceiveCallEnded(s, env).state)
  {
  }

  /** In every state reachable from the initial one, the in-call window is only shown while a peer connection is held. */
  lemma ModalHoldsPeer(env: Env, inputs: seq<Input>)
    ensures ShowCallModal(Run(Initial, env, inputs).state) ==> Run(Initial, env, inputs).state.hasPeer
  {
    RunKeepsConsistent(Initial, env, inputs);
  }

  /**
   * What the other client receives for an emitted event when a socket server
   * forwards the payload unchanged to the addressee. `server/server.js` serves
   * only HTTP endpoints and leaves WebSocket push as future work (line 86), so
   * no code relays these events; this is the assumption under which a
   * handshake is stated.
   */
  function Forward(e: WireEvent): Input {
    match e
    case CallUserEvent(_, from, signalData) => CallIncomingArrives(from, signalData)
    case AnswerCallEvent(_, signal) => CallAcceptedArrives(signal)
    case CallEndedEvent(_) => CallEndedArrives
  }

  function Relay(events: seq<WireEvent>): seq<Input>
    decreases |events|
  {
    if |events| == 0 then [] else [Forward(events[0])] + Relay(events[1..])
  }

  /**
   * Every trickled offer arrives as its own `call-incoming`, and each one
   * replaces the pending call: the callee ends up holding the LAST signal.
   */
  lemma {:induction false} RingsWithLastOffer(s: CallState, env: Env, to: string, from: Party, offers: seq<Signal>)
    requires Listening(env) && |offers| >= 1
    ensures Run(s, env, Relay(OfferEvents(to, from, offers))).state
         == s.(call := Some(Call(true, from, Some(offers[|offers| - 1]))))
    decreases |offers|
  {
    var events := OfferEvents(to, from, offers);
    assert events[1..] == OfferEvents(to, from, offers[1..]);
    if |offers| > 1 {
      RingsWithLastOffer(s.(call := Some(Call(true, from, Some(offers[0])))), env, to, from, offers[1..]);
    }
  }

  /** Any non-empty run of answers arriving as `call-accepted` marks the call accepted and changes nothing else. */
  lemma {:induction false} AcceptedByAnswers(s: CallState, env: Env, to: string, answers: seq<Signal>)
    requires s.acceptListener && |answers| >= 1
    ensures Run(s, env, Relay(AnswerEvents(to, answers))).state == s.(callAccepted := true)
    decreases |answers|
  {
    var events := AnswerEvents(to, answers);
    assert events[1..] == AnswerEvents(to, answers[1..]);
    if |answers| > 1 {
      AcceptedByAnswers(s.(callAccepted := true), env, to, answers[1..]);
    }
  }

  /**
   * One call end to end through a relay that forwards every payload
   * unchanged: the caller's trickled offers ring the callee with the caller's
   * identity and the last offer signal; every answer signal is addressed to
   * the caller; and once the answers arrive both sides show the in-call
   * window and neither shows the prompt.
   */
  lemma CallHandshake(caller: CallState, callerEnv: Env, callee: CallState, calleeEnv: Env,
                      calleeName: string, offers: seq<Signal>, answers: seq<Signal>)
    requires Listening(callerEnv) && Listening(calleeEnv)
    requires !callee.callAccepted
    requires |offers| >= 1 && |answers| >= 1
    ensures CallUser(caller, callerEnv, true, calleeEnv.user.value.id, calleeName, offers).emitted
         == OfferEvents(calleeEnv.user.value.id, callerEnv.user.value, offers)
    ensures var ringing := Ringing(caller, callerEnv, callee, calleeEnv, calleeName, offers);
      ringing.call == Some(Call(true, callerEnv.user.value, Some(offers[|offers| - 1]))) && ShowIncomingCall(ringing)
    ensures var answered := AnswerCall(Ringing(caller, callerEnv, callee, calleeEnv, calleeName, offers), calleeEnv, true, answers);
      && answered.emitted == AnswerEvents(callerEnv.user.value.id, answers)
      && ShowCallModal(answered.state) && !ShowIncomingCall(answered.state)
    ensures var answered := AnswerCall(Ringing(caller, callerEnv, callee, calleeEnv, calleeName, offers), calleeEnv, true, answers);
      var connected := Run(CallUser(caller, callerEnv, true, calleeEnv.user.value.id, calleeName, offers).state, callerEnv, Relay(answered.emitted)).state;
      ShowCallModal(connected) && !ShowIncomingCall(connected)
  {
    DialRings(caller, callerEnv, callee, calleeEnv, calleeName, offers);
    var dialed := CallUser(caller, callerEnv, true, calleeEnv.user.value.id, calleeName, offers);
    AnswerConnects(dialed.state, callerEnv, Ringing(caller, callerEnv, callee, calleeEnv, calleeName, offers), calleeEnv, answers);
  }

  /** The callee's state once the caller's offers have all been relayed to it. */
  function Ringing(caller: CallState, callerEnv: Env, callee: CallState, calleeEnv: Env, calleeName: string, offers: seq<Signal>): CallState
    requires calleeEnv.user.Some?
  {
    Run(callee, calleeEnv, Relay(CallUser(caller, callerEnv, true, calleeEnv.user.value.id, calleeName, offers).emitted)).state
  }

  /** The caller's trickled offers ring the callee with the caller's identity and the last offer. */
  lemma DialRings(caller: CallState, callerEnv: Env, callee: CallState, calleeEnv: Env,
                  calleeName: string, offers: seq<Signal>)
    requires Listening(callerEnv) && Listening(calleeEnv)
    requires !callee.callAccepted && |offers| >= 1
    ensures var dialed := CallUser(caller, callerEnv, true, calleeEnv.user.value.id, calleeName, offers);
      var ringing := Run(callee, calleeEnv, Relay(dialed.emitted)).state;
      && dialed.emitted == OfferEvents(calleeEnv.user.value.id, callerEnv.user.value, offers)
      && dialed.state.acceptListener && dialed.state.hasStream && !dialed.state.callEnded
      && ringing.call == Some(Call(true, callerEnv.user.value, Some(offers[|offers| - 1])))
      && ShowIncomingCall(ringing)
  {
    var dialed := CallUser(caller, callerEnv, true, calleeEnv.user.value.id, calleeName, offers);
    assert dialed.emitted == OfferEvents(calleeEnv.user.value.id, callerEnv.user.value, offers);
    RingsWithLastOffer(callee, calleeEnv, calleeEnv.user.value.id, callerEnv.user.value, offers);
  }

  /** Answering a ringing call reaches the caller and puts both sides in the in-call window. */
  lemma AnswerConnects(dialing: CallState, callerEnv: Env, ringing: CallState, calleeEnv: Env, answers: seq<Signal>)
    requires Listening(callerEnv) && calleeEnv.hasSocket
    requires dialing.acceptListener && dialing.hasStream && !dialing.callEnded
    requires ShowIncomingCall(ringing) && ringing.call.value.from == callerEnv.user.value
    requires |answers| >= 1
    ensures var answered := AnswerCall(ringing, calleeEnv, true, answers);
      var connected := Run(dialing, callerEnv, Relay(answered.emitted)).state;
      && answered.emitted == AnswerEvents(callerEnv.user.value.id, answers)
      && ShowCallModal(answered.state) && !ShowIncomingCall(answered.state)
      && ShowCallModal(connected) && !ShowIncomingCall(connected)
  {
    CalleeAnswers(ringing, calleeEnv, callerEnv.user.value, answers);
    AcceptedByAnswers(dialing, callerEnv, callerEnv.user.value.id, answers);
  }

  /** Answering a ringing call sends every answer signal to the caller and opens the in-call window. */
  lemma CalleeAnswers(ringing: CallState, env: Env, from: Party, answers: seq<Signal>)
    requires env.hasSocket && ShowIncomingCall(ringing) && ringing.call.value.from == from
    ensures AnswerCall(ringing, env, true, answers).emitted == AnswerEvents(from.id, answers)
    ensures ShowCallModal(AnswerCall(ringing, env, true, answers).state)
    ensures !ShowIncomingCall(AnswerCall(ringing, env, true, answers).state)
  {
  }

  /**
   * The program as written with trickling on: the caller's peer sends the offer
   * first and ICE candidates after it, and each `call-incoming` replaces the
   * pending call, so after two or more signals the callee's peer is fed the
   * last one and, when it differs from the first, never the offer. A peer
   * without the offer produces no answer signal. Answering with none opens
   * the callee's in-call window, sends the caller nothing, and leaves the
   * caller as dialling left it, without the window unless it was already
   * marked accepted.
   */
  lemma TrickledCallStalls(caller: CallState, callerEnv: Env, callee: CallState, calleeEnv: Env,
                           calleeName: string, offers: seq<Signal>)
    requires Listening(callerEnv) && Listening(calleeEnv)
    requires !callee.callAccepted && |offers| >= 2
    ensures var ringing := Ringing(caller, callerEnv, callee, calleeEnv, calleeName, offers);
      && ringing.call.Some? && ringing.call.value.signal == Some(offers[|offers| - 1])
      && (offers[|offers| - 1] != offers[0] ==> ringing.call.value.signal != Some(offers[0]))
    ensures var answered := AnswerCall(Ringing(caller, callerEnv, callee, calleeEnv, calleeName, offers), calleeEnv, true, []);
      answered.emitted == [] && ShowCallModal(answered.state)
    ensures var dialed := CallUser(caller, callerEnv, true, calleeEnv.user.value.id, calleeName, offers).state;
      var answered := AnswerCall(Ringing(caller, callerEnv, callee, calleeEnv, calleeName, offers), calleeEnv, true, []);
      Run(dialed, callerEnv, Relay(answered.emitted)).state == dialed
    ensures !caller.callAccepted ==>
      !ShowCallModal(CallUser(caller, callerEnv, true, calleeEnv.user.value.id, calleeName, offers).state)
  {
    DialRings(caller, callerEnv, callee, calleeEnv, calleeName, offers);
    CalleeAnswers(Ringing(caller, callerEnv, callee, calleeEnv, calleeName, offers), calleeEnv, callerEnv.user.value, []);
  }

  /**
   * Hanging up an outgoing call sends `call-ended` to the callee, and
   * hanging up an answered call sends it to the caller.
   */
  lemma HangUpAddressesOtherParty(s: CallState, env: Env, peer: Party, offers: seq<Signal>, answers: seq<Signal>, signal: Signal)
    requires Listening(env)
    ensures var dialing := CallUser(s, env, true, peer.id, peer.name, offers).state;
      LeaveCall(dialing, env, true).emitted == [CallEndedEvent(peer.id)]
    ensures var ringing := ReceiveCallIncoming(s, env, peer, signal).state;
      var inCall := AnswerCall(ringing, env, true, answers).state;
      LeaveCall(inCall, env, true).emitted == [CallEndedEvent(peer.id)]
  {
  }

  /**
   * The `call-accepted` listener outlives the call it was registered for, so
   * an acceptance that arrives after hanging up leaves `callAccepted` set; the
   * next invite is then recorded but its prompt is not shown.
   */
  lemma LateAcceptHidesNextInvite(s: CallState, env: Env, signal: Signal, from: Party, offer: Signal)
    requires Listening(env) && s.acceptListener
    ensures var left := LeaveCall(s, env, true).state;
      var late := ReceiveCallAccepted(left, signal).state;
      var invited := ReceiveCallIncoming(late, env, from, offer).state;
      && invited.call == Some(Call(true, from, Some(offer)))
      && !ShowIncomingCall(invited) && !ShowCallModal(invited)
  {
  }
}

=== FILE: call_session.dfy ===
/**
 * The browser-side call context: who is calling whom, whether the call was
 * accepted or ended, and the local media and peer connection it holds.
 * Media capture and the peer library are abstracted: capture either succeeds
 * or fails, and the signals the peer produces are given as a sequence of
 * opaque blobs. Every handler returns the new state together with the wire
 * events it emits on the socket.
 */
module CallSession {
  import opened Options

  datatype Party = Party(id: string, name: string)

  /** An opaque offer, answer or candidate produced by the peer library. */
  datatype Signal = Signal(blob: string)

  /** The `call` record; for an outgoing call `from` holds the callee. */
  datatype Call = Call(isReceivingCall: bool, from: Party, signal: Option<Signal>)

  datatype CallState = CallState(
    call: Option<Call>,
    callAccepted: bool,
    callEnded: bool,
    hasStream: bool,          // a local media stream is held
    hasPeer: bool,            // a peer connection is held
    isVideoEnabled: bool,
    isAudioEnabled: bool,
    acceptListener: bool)     // a `call-accepted` listener is registered on the socket

  /** Whether a socket is connected and who is signed in. */
  datatype Env = Env(hasSocket: bool, user: Option<Party>)

  /** Events the client emits on the socket. */
  datatype WireEvent =
    | CallUserEvent(to: string, from: Party, signalData: Signal)
    | AnswerCallEvent(to: string, signal: Signal)
    | CallEndedEvent(to: string)

  datatype Step = Step(state: CallState, emitted: seq<WireEvent>)

  const Initial: CallState := CallState(None, false, false, false, false, true, true, false)

  /** The `call-incoming` and `call-ended` listeners exist only while a socket and a user are present. */
  predicate Listening(env: Env) {
    env.hasSocket && env.user.Some?
  }

  /** The `call-incoming` handler: records the invite as the pending call and touches nothing else. */
  function ReceiveCallIncoming(s: CallState, env: Env, from: Party, signal: Signal): (r: Step)
    ensures Listening(env) ==> r.state == s.(call := Some(Call(true, from, Some(signal))))
    ensures !Listening(env) ==> r.state == s
    ensures r.emitted == []
  {
    if Listening(env) then Step(s.(call := Some(Call(true, from, Some(signal)))), []) else Step(s, [])
  }

  /** One `call-user` event per signal the initiating peer produces, addressed to the callee. */
  function OfferEvents(to: string, from: Party, signals: seq<Signal>): (r: seq<WireEvent>)
    ensures |r| == |signals|
    ensures forall i :: 0 <= i < |r| ==> r[i] == CallUserEvent(to, from, signals[i])
  {
    if |signals| == 0 then [] else [CallUserEvent(to, from, signals[0])] + OfferEvents(to, from, signals[1..])
  }

  /** One `answer-call` event per signal the answering peer produces, addressed to the caller. */
  function AnswerEvents(to: string, signals: seq<Signal>): (r: seq<WireEvent>)
    ensures |r| == |signals|
    ensures forall i :: 0 <= i < |r| ==> r[i] == AnswerCallEvent(to, signals[i])
  {
    if |signals| == 0 then [] else [AnswerCallEvent(to, signals[0])] + AnswerEvents(to, signals[1..])
  }

  /**
   * `callUser(id, partnerName)`. Media capture comes first and keeps the
   * stream even if the call then cannot proceed. Without media, a socket or a
   * user the call state is untouched and nothing is sent. Otherwise the call
   * is marked not ended, the callee becomes the pending outgoing call, a peer
   * is created, a `call-accepted` listener is registered, and each offer
   * signal goes out as `call-user` from the signed-in user.
   */
  function CallUser(s: CallState, env: Env, mediaOk: bool, id: string, partnerName: string, offers: seq<Signal>): (r: Step)
    ensures !mediaOk || !Listening(env) ==>
      && r.state.call == s.call && r.state.callAccepted == s.callAccepted && r.state.callEnded == s.callEnded
      && r.state.hasPeer == s.hasPeer && r.emitted == []
    ensures !mediaOk ==> r.state == s
    ensures mediaOk ==> r.state.hasStream
    ensures mediaOk && Listening(env) ==>
      && !r.state.callEnded && r.state.callAccepted == s.callAccepted
      && r.state.call == Some(Call(false, Party(id, partnerName), None))
      && r.state.hasPeer && r.state.acceptListener
      && |r.emitted| == |offers|
      && forall i :: 0 <= i < |r.emitted| ==>
           r.emitted[i].CallUserEvent? && r.emitted[i].to == id && r.emitted[i].from == env.user.value
    ensures mediaOk && Listening(env) ==> r.emitted == OfferEvents(id, env.user.value, offers)
    ensures !Listening(env) ==> r.state.acceptListener == s.acceptListener
    ensures r.state.isVideoEnabled == s.isVideoEnabled && r.state.isAudioEnabled == s.isAudioEnabled
  {
    if !mediaOk then Step(s, [])
    else
      var held := s.(hasStream := true);
      if !Listening(env) then Step(held, [])
      else
        Step(held.(callEnded := false,
                   call := Some(Call(false, Party(id, partnerName), None)),
                   hasPeer := true,
                   acceptListener := true),
             OfferEvents(id, env.user.value, offers))
  }

  /** The `call-accepted` handler, present once any outgoing call got going: marks the call accepted. */
  function ReceiveCallAccepted(s: CallState, signal: Signal): (r: Step)
    ensures s.acceptListener ==> r.state == s.(callAccepted := true)
    ensures !s.acceptListener ==> r.state == s
    ensures r.emitted == []
  {
    if s.acceptListener then Step(s.(callAccepted := true), []) else Step(s, [])
  }

  /**
   * `answerCall()`. Media capture comes first. Without media, a socket or a
   * pending call nothing else happens. Otherwise the call is accepted and not
   * ended, a peer is created, and each answer signal goes to the caller.
   */
  function AnswerCall(s: CallState, env: Env, mediaOk: bool, answers: seq<Signal>): (r: Step)
    ensures !mediaOk ==> r.state == s && r.emitted == []
    ensures mediaOk ==> r.state.hasStream
    ensures !env.hasSocket || s.call.None? ==>
      && r.state.call == s.call && r.state.callAccepted == s.callAccepted && r.state.callEnded == s.callEnded
      && r.state.hasPeer == s.hasPeer && r.emitted == []
    ensures mediaOk && env.hasSocket && s.call.Some? ==>
      && r.state.callAccepted && !r.state.callEnded && r.state.hasPeer && r.state.call == s.call
      && |r.emitted| == |answers|
      && forall i :: 0 <= i < |r.emitted| ==> r.emitted[i] == AnswerCallEvent(s.call.value.from.id, answers[i])
    ensures r.state.isVideoEnabled == s.isVideoEnabled && r.state.isAudioEnabled == s.isAudioEnabled
    ensures r.state.acceptListener == s.acceptListener
  {
    if !mediaOk then Step(s, [])
    else
      var held := s.(hasStream := true);
      if !env.hasSocket || s.call.None? then Step(held, [])
      else
        Step(held.(callAccepted := true, callEnded := false, hasPeer := true),
             AnswerEvents(s.call.value.from.id, answers))
  }

  /**
   * `leaveCall(emitEvent)`. From any state the call ends: not accepted, no
   * pending call, no peer and no stream. A `call-ended` goes to the other
   * party exactly when `emitEvent` is set, a socket is present and there was a call.
   */
  function LeaveCall(s: CallState, env: Env, emitEvent: bool): (r: Step)
    ensures r.state.callEnded && !r.state.callAccepted && r.state.call.None?
    ensures !r.state.hasPeer && !r.state.hasStream
    ensures r.state.isVideoEnabled == s.isVideoEnabled && r.state.isAudioEnabled == s.isAudioEnabled
    ensures r.state.acceptListener == s.acceptListener
    ensures |r.emitted| <= 1
    ensures |r.emitted| == 1 <==> emitEvent && env.hasSocket && s.call.Some?
    ensures |r.emitted| == 1 ==> r.emitted[0] == CallEndedEvent(s.call.value.from.id)
  {
    var ended := s.(callEnded := true, callAccepted := false, call := None, hasPeer := false, hasStream := false);
    if emitEvent && env.hasSocket && s.call.Some? then Step(ended, [CallEndedEvent(s.call.value.from.id)])
    else Step(ended, [])
  }

  /** The `call-ended` handler: leaves the call without echoing `call-ended` back. */
  function ReceiveCallEnded(s: CallState, env: Env): (r: Step)
    ensures r.emitted == []
    ensures Listening(env) ==> r.state == LeaveCall(s, env, true).state
    ensures !Listening(env) ==> r.state == s
  {
    if Listening(env) then LeaveCall(s, env, false) else Step(s, [])
  }

  /** `declineCall()`: drops the pending call and nothing else; no signal is sent. */
  function DeclineCall(s: CallState): (r: Step)
    ensures r.state.call.None?
    ensures r.state == s.(call := None)
    ensures r.emitted == []
  {
    Step(s.(call := None), [])
  }

  /** `toggleVideo()`: flips the video flag, and only it, while a stream is held. */
  function ToggleVideo(s: CallState): (r: Step)
    ensures s.hasStream ==> r.state.isVideoEnabled == !s.isVideoEnabled
    ensures r.state.(isVideoEnabled := s.isVideoEnabled) == s
    ensures !s.hasStream ==> r.state == s
    ensures r.emitted == []
  {
    if s.hasStream then Step(s.(isVideoEnabled := !s.isVideoEnabled), []) else Step(s, [])
  }

  /** `toggleAudio()`: flips the audio flag, and only it, while a stream is held. */
  function ToggleAudio(s: CallState): (r: Step)
    ensures s.hasStream ==> r.state.isAudioEnabled == !s.isAudioEnabled
    ensures r.state.(isAudioEnabled := s.isAudioEnabled) == s
    ensures !s.hasStream ==> r.state == s
    ensures r.emitted == []
  {
    if s.hasStream then Step(s.(isAudioEnabled := !s.isAudioEnabled), []) else Step(s, [])
  }

  /** Everything that can happen to the context: socket events from the peer, and user actions. */
  datatype Input =
    | CallIncomingArrives(from: Party, signal: Signal)
    | CallEndedArrives
    | CallAcceptedArrives(signal: Signal)
    | UserCalls(mediaOk: bool, id: string, partnerName: string, offers: seq<Signal>)
    | UserAnswers(mediaOk: bool, answers: seq<Signal>)
    | UserHangsUp
    | UserDeclines
    | UserTogglesVideo
    | UserTogglesAudio

  /** Socket events, as opposed to the user's own actions. */
  predicate Remote(i: Input) {
    i.CallIncomingArrives? || i.CallEndedArrives? || i.CallAcceptedArrives?
  }

  function Apply(s: CallState, env: Env, i: Input): Step {
    match i
    case CallIncomingArrives(from, signal) => ReceiveCallIncoming(s, env, from, signal)
    case CallEndedArrives => ReceiveCallEnded(s, env)
    case CallAcceptedArrives(signal) => ReceiveCallAccepted(s, signal)
    case UserCalls(mediaOk, id, name, offers) => CallUser(s, env, mediaOk, id, name, offers)
    case UserAnswers(mediaOk, answers) => AnswerCall(s, env, mediaOk, answers)
    case UserHangsUp => LeaveCall(s, env, true)
    case UserDeclines => DeclineCall(s)
    case UserTogglesVideo => ToggleVideo(s)
    case UserTogglesAudio => ToggleAudio(s)
  }

  /** Runs the inputs in order, collecting everything emitted. */
  function Run(s: CallState, env: Env, inputs: seq<Input>): Step
    decreases |inputs|
  {
    if |inputs| == 0 then Step(s, [])
    else
      var first := Apply(s, env, inputs[0]);
      var rest := Run(first.state, env, inputs[1..]);
      Step(rest.state, first.emitted + rest.emitted)
  }

  /**
   * The resource invariant of the context: a peer connection is only held
   * together with a stream, and a call that is live (not ended) and accepted,
   * or awaiting acceptance, holds a peer connection.
   */
  predicate Consistent(s: CallState) {
    && (s.hasPeer ==> s.hasStream)
    && (!s.callEnded && (s.callAccepted || s.acceptListener) ==> s.hasPeer)
  }

  lemma ApplyKeepsConsistent(s: CallState, env: Env, i: Input)
    requires Consistent(s)
    ensures Consistent(Apply(s, env, i).state)
  {
  }

  /** Every state reachable from a consistent one is consistent. */
  lemma {:induction false} RunKeepsConsistent(s: CallState, env: Env, inputs: seq<Input>)
    requires Consistent(s)
    ensures Consistent(Run(s, env, inputs).state)
    decreases |inputs|
  {
    if |inputs| > 0 {
      ApplyKeepsConsistent(s, env, inputs[0]);
      RunKeepsConsistent(Apply(s, env, inputs[0]).state, env, inputs[1..]);
    }
  }

  /** Socket events alone never make the client emit anything: in particular a received `call-ended` is never echoed. */
  lemma {:induction false} RemoteEventsAreSilent(s: CallState, env: Env, inputs: seq<Input>)
    requires forall k :: 0 <= k < |inputs| ==> Remote(inputs[k])
    ensures Run(s, env, inputs).emitted == []
    decreases |inputs|
  {
    if |inputs| > 0 {
      RemoteEventsAreSilent(Apply(s, env, inputs[0]).state, env, inputs[1..]);
    }
  }

  /**
   * Every `call-ended` the client ever emits answers one of the user's own
   * hang-ups: the number emitted is at most the number of hang-ups.
   */
  lemma {:induction false} CallEndedOnlyOnHangUp(s: CallState, env: Env, inputs: seq<Input>)
    ensures CountEnded(Run(s, env, inputs).emitted) <= CountHangUps(inputs)
    decreases |inputs|
  {
    if |inputs| > 0 {
      var first := Apply(s, env, inputs[0]);
      CallEndedOnlyOnHangUp(first.state, env, inputs[1..]);
      CountEndedConcat(first.emitted, Run(first.state, env, inputs[1..]).emitted);
      assert inputs == [inputs[0]] + inputs[1..];
      EmittedByOneInput(s, env, inputs[0]);
    }
  }

  lemma EmittedByOneInput(s: CallState, env: Env, i: Input)
    ensures CountEnded(Apply(s, env, i).emitted) <= (if i.UserHangsUp? then 1 else 0)
  {
    match i
    case UserCalls(mediaOk, id, name, offers) =>
      OffersAreNotEnded(id, env.user, offers);
    case UserAnswers(mediaOk, answers) =>
      if s.call.Some? {
        AnswersAreNotEnded(s.call.value.from.id, answers);
      }
    case _ =>
  }

  lemma {:induction false} OffersAreNotEnded(to: string, user: Option<Party>, offers: seq<Signal>)
    ensures user.Some? ==> CountEnded(OfferEvents(to, user.value, offers)) == 0
    decreases |offers|
  {
    if |offers| > 0 {
      OffersAreNotEnded(to, user, offers[1..]);
    }
  }

  lemma {:induction false} AnswersAreNotEnded(to: string, answers: seq<Signal>)
    ensures CountEnded(AnswerEvents(to, answers)) == 0
    decreases |answers|
  {
    if |answers| > 0 {
      AnswersAreNotEnded(to, answers[1..]);
    }
  }

  function CountEnded(events: seq<WireEvent>): nat {
    if |events| == 0 then 0 else (if events[0].CallEndedEvent? then 1 else 0) + CountEnded(events[1..])
  }

  function CountHangUps(inputs: seq<Input>): nat {
    if |inputs| == 0 then 0 else (if inputs[0].UserHangsUp? then 1 else 0) + CountHangUps(inputs[1..])
  }

  lemma {:induction false} CountEndedConcat(a: seq<WireEvent>, b: seq<WireEvent>)
    ensures CountEnded(a + b) == CountEnded(a) + CountEnded(b)
    decreases |a|
  {
    if |a| > 0 {
      assert (a + b)[1..] == a[1..] + b;
      CountEndedConcat(a[1..], b);
    } else {
      assert a + b == b;
    }
  }
}

=== FILE: chat_input.dfy ===
/**
 * The client's message composer: the text box, the voice recorder and its
 * `mm:ss` timer display.
 */
module ChatInput {
  import opened Options
  import opened Domain
  import opened Text

  datatype Submitted = Submitted(sent: Option<Content>, text: string)

  /**
   * `handleSubmit`: sends `{text: text.trim()}` and clears the box when the
   * trimmed text is non-empty; a blank box sends nothing and keeps its text.
   */
  function Submit(text: string): (r: Submitted)
    ensures r.sent.Some? <==> !AllSpace(text)
    ensures r.sent.Some? ==> r.sent.value == Content(Some(Trim(text)), None) && r.text == ""
    ensures r.sent.Some? ==> Trim(text) != "" && Trim(Trim(text)) == Trim(text)
    ensures r.sent.None? ==> r.text == text
  {
    var t := Trim(text);
    if t != "" then
      TrimIdempotent(text);
      Submitted(Some(Content(Some(t), None)), "")
    else Submitted(None, text)
  }

  /**
   * `r` is an `m…m:ss` timer display: a minutes field of digits worth `mins`,
   * a colon, and a two-digit seconds field worth `secs`.
   */
  predicate ShowsTime(r: string, mins: nat, secs: nat) {
    && |r| >= 5 && r[|r| - 3] == ':'
    && AllDigits(r[..|r| - 3]) && AllDigits(r[|r| - 2..])
    && ValueOf(r[..|r| - 3]) == mins && ValueOf(r[|r| - 2..]) == secs
  }

  /**
   * `formatTime(seconds)`: whole minutes, a colon, and the remaining seconds,
   * each padded to two digits.
   */
  function FormatTime(seconds: nat): (r: string)
    ensures ShowsTime(r, seconds / 60, seconds % 60)
    ensures seconds < 6000 ==> |r| == 5
    ensures |r| > 5 ==> r[0] != '0'
  {
    MinutesBelowHundred(seconds, seconds / 60);
    Display(seconds / 60, seconds % 60)
  }

  /** The display for `mins` whole minutes and `secs` further seconds, each padded to two digits. */
  function Display(mins: nat, secs: nat): (r: string)
    requires secs < 60
    ensures ShowsTime(r, mins, secs)
    ensures mins < 100 ==> |r| == 5
    ensures |r| > 5 ==> r[0] != '0'
  {
    var m, sec := Padded(mins), Padded(secs);
    ClockOfFields(m, sec, mins, secs);
    Clock(m, sec)
  }

  /** `n` padded to two digits: at least two digits worth `n`, exactly two below 100. */
  function Padded(n: nat): (p: string)
    ensures |p| >= 2 && AllDigits(p) && ValueOf(p) == n
    ensures n < 100 ==> |p| == 2
    ensures |p| > 2 ==> p[0] != '0'
  {
    PaddedNumber(n);
    PadStart2(NatToString(n))
  }

  /** Joining two digit fields gives a display worth their values. */
  lemma {:induction false} ClockOfFields(m: string, sec: string, mins: nat, secs: nat)
    requires |m| >= 2 && AllDigits(m) && ValueOf(m) == mins && (mins < 100 ==> |m| == 2)
    requires |m| > 2 ==> m[0] != '0'
    requires |sec| == 2 && AllDigits(sec) && ValueOf(sec) == secs
    ensures ShowsTime(Clock(m, sec), mins, secs)
    ensures mins < 100 ==> |Clock(m, sec)| == 5
    ensures |Clock(m, sec)| > 5 ==> Clock(m, sec)[0] != '0'
  {
  }

  /** Reads an `m…m:ss` display back as a number of seconds. */
  function ParseTime(s: string): (r: Option<nat>)
    ensures r.Some? ==> |s| >= 4 && s[|s| - 3] == ':'
  {
    if |s| >= 4 && s[|s| - 3] == ':' && AllDigits(s[..|s| - 3]) && AllDigits(s[|s| - 2..]) then
      Some(60 * ValueOf(s[..|s| - 3]) + ValueOf(s[|s| - 2..]))
    else None
  }

  /** Reading the timer display back gives the elapsed seconds. */
  lemma {:induction false} FormatTimeRoundTrip(seconds: nat)
    ensures ParseTime(FormatTime(seconds)) == Some(seconds)
  {
    ReadFields(FormatTime(seconds), seconds);
  }

  /** A display whose fields are digit strings worth the minutes and remaining seconds of `seconds` reads back as `seconds`. */
  lemma {:induction false} ReadFields(r: string, seconds: nat)
    requires ShowsTime(r, seconds / 60, seconds % 60)
    ensures ParseTime(r) == Some(seconds)
  {
    var m, sec := ValueOf(r[..|r| - 3]), ValueOf(r[|r| - 2..]);
    assert ParseTime(r) == Some(60 * m + sec);
    SplitMinutes(seconds, m, sec);
  }

  lemma {:induction false} SplitMinutes(seconds: nat, mins: nat, secs: nat)
    requires mins == seconds / 60 && secs == seconds % 60
    ensures 60 * mins + secs == seconds
  {
  }

  /** Fewer than 6000 seconds make fewer than 100 whole minutes. */
  lemma {:induction false} MinutesBelowHundred(seconds: nat, mins: nat)
    requires mins == seconds / 60
    ensures seconds < 6000 ==> mins < 100
  {
  }

  /** Joins a minutes field and a two-character seconds field with a colon. */
  function Clock(mins: string, secs: string): (r: string)
    requires |mins| >= 2 && |secs| == 2
    ensures |r| >= 5 && r[|r| - 3] == ':' && r[..|r| - 3] == mins && r[|r| - 2..] == secs
  {
    var r := mins + ":" + secs;
    assert r[..|r| - 3] == mins;
    assert r[|r| - 2..] == secs;
    r
  }

  /** A number padded to two digits keeps its value and has at least two digits, exactly two below 100. */
  lemma PaddedNumber(n: nat)
    ensures var p := PadStart2(NatToString(n));
      |p| >= 2 && AllDigits(p) && ValueOf(p) == n && (n < 100 ==> |p| == 2)
    ensures var p := PadStart2(NatToString(n));
      |p| > 2 ==> p[0] != '0'
  {
    var s := NatToString(n);
    var p := PadStart2(s);
    if |p| > 2 {
      assert p == p[|p| - |s|..] == s;
    }
  }


  /** A piece of recorded audio as the recorder delivers it. */
  datatype Chunk = Chunk(size: nat, blob: string)

  datatype Recorder = Recorder(isRecording: bool, hasRecorder: bool, recordingTime: nat, chunks: seq<Chunk>)

  /** How an attempt to start recording ends: microphone refused, recorder could not be built, or recording. */
  datatype StartOutcome = MicDenied | RecorderFailed | Started

  /**
   * `startRecording`: once the microphone is granted the component is marked
   * recording with the timer at zero, before the recorder is built; if building
   * it fails, that mark stays and the previous recorder, if any, is kept.
   */
  function StartRecording(r: Recorder, outcome: StartOutcome): (r': Recorder)
    ensures outcome.MicDenied? ==> r' == r
    ensures !outcome.MicDenied? ==> r'.isRecording && r'.recordingTime == 0
    ensures outcome.Started? ==> r'.hasRecorder
    ensures outcome.RecorderFailed? ==> r'.hasRecorder == r.hasRecorder
    ensures r'.chunks == r.chunks
  {
    match outcome
    case MicDenied => r
    case RecorderFailed => r.(isRecording := true, recordingTime := 0)
    case Started => r.(isRecording := true, recordingTime := 0, hasRecorder := true)
  }

  /** `stopRecording`: stops and clears the recording mark only when a recorder exists. */
  function StopRecording(r: Recorder): (r': Recorder)
    ensures r.hasRecorder ==> !r'.isRecording
    ensures !r.hasRecorder ==> r' == r
    ensures r'.hasRecorder == r.hasRecorder && r'.chunks == r.chunks
    ensures r'.recordingTime == r.recordingTime
  {
    if r.hasRecorder then r.(isRecording := false) else r
  }

  /** `handleMicClick`: stops while recording, starts otherwise. */
  function MicClick(r: Recorder, outcome: StartOutcome): (r': Recorder)
    ensures r.isRecording && r.hasRecorder ==> !r'.isRecording
    ensures r.isRecording && !r.hasRecorder ==> r' == r
    ensures !r.isRecording && !outcome.MicDenied? ==> r'.isRecording && r'.recordingTime == 0
    ensures !r.isRecording && outcome.MicDenied? ==> r' == r
    ensures r.isRecording ==> r'.recordingTime == r.recordingTime && r'.chunks == r.chunks
  {
    if r.isRecording then StopRecording(r) else StartRecording(r, outcome)
  }

  /** A run of mic-button clicks, each start attempt ending as `outcomes` says. */
  function Clicks(r: Recorder, outcomes: seq<StartOutcome>): Recorder
    decreases |outcomes|
  {
    if |outcomes| == 0 then r else Clicks(MicClick(r, outcomes[0]), outcomes[1..])
  }

  /** Once a recorder exists, a click flips recording whenever a start succeeds. */
  lemma MicClickToggles(r: Recorder)
    requires r.hasRecorder
    ensures MicClick(r, Started).isRecording == !r.isRecording
    ensures MicClick(MicClick(r, Started), Started).isRecording == r.isRecording
  {
  }

  /**
   * If the first recorder cannot be built, the component stays marked as
   * recording: every later click only tries to stop a recorder that does not
   * exist, so nothing changes again.
   */
  lemma RecorderFailureSticks(r: Recorder, outcomes: seq<StartOutcome>)
    requires !r.hasRecorder
    ensures StartRecording(r, RecorderFailed).isRecording
    ensures Clicks(StartRecording(r, RecorderFailed), outcomes) == StartRecording(r, RecorderFailed)
  {
    ClicksIgnoredWithoutRecorder(StartRecording(r, RecorderFailed), outcomes);
  }

  lemma {:induction false} ClicksIgnoredWithoutRecorder(r: Recorder, outcomes: seq<StartOutcome>)
    requires r.isRecording && !r.hasRecorder
    ensures Clicks(r, outcomes) == r
    decreases |outcomes|
  {
    if |outcomes| > 0 {
      ClicksIgnoredWithoutRecorder(MicClick(r, outcomes[0]), outcomes[1..]);
    }
  }

  /** Every buffered chunk holds data. */
  predicate ChunksNonEmpty(r: Recorder) {
    forall i :: 0 <= i < |r.chunks| ==> r.chunks[i].size > 0
  }

  /** The `dataavailable` listener: a chunk is buffered only if it has data. */
  function OnDataAvailable(r: Recorder, c: Chunk): (r': Recorder)
    ensures c.size > 0 ==> r'.chunks == r.chunks + [c]
    ensures c.size == 0 ==> r' == r
    ensures ChunksNonEmpty(r) ==> ChunksNonEmpty(r')
    ensures r'.isRecording == r.isRecording && r'.hasRecorder == r.hasRecorder
  {
    if c.size > 0 then r.(chunks := r.chunks + [c]) else r
  }

  /**
   * The recorder's `stop` listener: the buffered audio, read as the data URL
   * `dataUrl`, is sent as a voice message, and the buffer is emptied.
   */
  function OnRecorderStopped(r: Recorder, dataUrl: string): (res: (Recorder, Content))
    ensures res.0.chunks == []
    ensures res.1 == Content(None, Some(Audio(dataUrl)))
    ensures res.0.isRecording == r.isRecording && res.0.hasRecorder == r.hasRecorder
  {
    (r.(chunks := []), Content(None, Some(Audio(dataUrl))))
  }

  /** Whatever the recorder delivers, the buffer only ever holds chunks with data. */
  lemma {:induction false} BufferedChunksNonEmpty(r: Recorder, delivered: seq<Chunk>)
    requires ChunksNonEmpty(r)
    ensures ChunksNonEmpty(Deliver(r, delivered))
    ensures |Deliver(r, delivered).chunks| <= |r.chunks| + |delivered|
    decreases |delivered|
  {
    if |delivered| > 0 {
      BufferedChunksNonEmpty(OnDataAvailable(r, delivered[0]), delivered[1..]);
    }
  }

  function Deliver(r: Recorder, delivered: seq<Chunk>): Recorder
    decreases |delivered|
  {
    if |delivered| == 0 then r else Deliver(OnDataAvailable(r, delivered[0]), delivered[1..])
  }
}

/** The simpler composer of the stand-alone messenger: text only. */
module BasicChatInput {
  import opened Options
  import opened Text

  datatype Submitted = Submitted(sent: Option<string>, text: string)

  /** `handleSubmit`: sends `text.trim()` and clears the box when it is non-empty; otherwise nothing changes. */
  function Submit(text: string): (r: Submitted)
    ensures r.sent.Some? <==> !AllSpace(text)
    ensures r.sent.Some? ==> r.sent.value == Trim(text) && r.text == ""
    ensures r.sent.None? ==> r.text == text
  {
    if Trim(text) != "" then Submitted(Some(Trim(text)), "") else Submitted(None, text)
  }

  /** The send button is disabled while the trimmed text is empty. */
  predicate SubmitDisabled(text: string) {
    Trim(text) == ""
  }

  /** The button is disabled exactly when submitting would send nothing. */
  lemma DisabledIffNothingSent(text: string)
    ensures SubmitDisabled(text) <==> Submit(text).sent.None?
    ensures SubmitDisabled(text) <==> AllSpace(text)
  {
  }
}

=== FILE: chat_list.dfy ===
/**
 * Pure operations on the client's chat list and message list: the keyed
 * lookups and filters the React handlers perform with `find`, `filter`,
 * `map` and `some`, and the newest-first ordering of chat lists.
 */
module ChatList {
  import opened Options
  import opened Domain

  /** Position of the first element whose key is `k` (`Array.prototype.find`). */
  function Find<T>(s: seq<T>, key: T -> string, k: string): (r: Option<nat>)
    ensures r.Some? ==> r.value < |s| && key(s[r.value]) == k
    ensures r.Some? ==> forall j :: 0 <= j < r.value ==> key(s[j]) != k
    ensures r.None? <==> forall j :: 0 <= j < |s| ==> key(s[j]) != k
  {
    if |s| == 0 then None
    else if key(s[0]) == k then Some(0)
    else
      match Find(s[1..], key, k)
      case None =>
        assert forall j :: 1 <= j < |s| ==> s[j] == s[1..][j - 1];
        None
      case Some(i) =>
        assert forall j :: 1 <= j < |s| ==> s[j] == s[1..][j - 1];
        Some(i + 1)
  }

  /** The elements whose key is not `k`, in their original order (`filter(x => x.id !== k)`). */
  function Drop<T>(s: seq<T>, key: T -> string, k: string): (r: seq<T>)
    ensures |r| <= |s|
    ensures forall i :: 0 <= i < |r| ==> key(r[i]) != k
  {
    if |s| == 0 then []
    else if key(s[0]) == k then Drop(s[1..], key, k)
    else [s[0]] + Drop(s[1..], key, k)
  }

  /** An element survives the filter exactly when it is in `s` and its key is not `k`. */
  lemma {:induction false} DropMembers<T>(s: seq<T>, key: T -> string, k: string, x: T)
    ensures x in Drop(s, key, k) <==> x in s && key(x) != k
  {
    if |s| > 0 {
      DropMembers(s[1..], key, k, x);
      assert s == [s[0]] + s[1..];
    }
  }

  lemma {:induction false} DropConcat<T>(a: seq<T>, b: seq<T>, key: T -> string, k: string)
    ensures Drop(a + b, key, k) == Drop(a, key, k) + Drop(b, key, k)
  {
    if |a| > 0 {
      assert (a + b)[1..] == a[1..] + b;
      DropConcat(a[1..], b, key, k);
    } else {
      assert a + b == b;
    }
  }

  /** Filtering a single element keeps it exactly when its key is not `k`; with `DropConcat` this fixes `Drop` as an order- and duplicate-preserving filter. */
  lemma DropOne<T>(x: T, key: T -> string, k: string)
    ensures Drop([x], key, k) == if key(x) == k then [] else [x]
  {
    assert [x][1..] == [];
  }

  /** Filtering out a key that no element has changes nothing. */
  lemma {:induction false} DropAbsent<T>(s: seq<T>, key: T -> string, k: string)
    requires forall j :: 0 <= j < |s| ==> key(s[j]) != k
    ensures Drop(s, key, k) == s
  {
    if |s| > 0 {
      DropAbsent(s[1..], key, k);
      assert s == [s[0]] + s[1..];
    }
  }

  /** No two chats share an id. */
  predicate UniqueIds(chats: seq<Chat>) {
    forall i, j :: 0 <= i < j < |chats| ==> chats[i].id != chats[j].id
  }

  /**
   * Moves the chat with id `id` to the front with `m` as its last message
   * (the `find` / `filter` / `[updated, ...others]` idiom). The chats before it
   * keep their order, and after it every later chat with the same id is dropped.
   * If no chat has the id, the list is returned unchanged.
   */
  function MoveToFront(chats: seq<Chat>, id: string, m: Message): (r: seq<Chat>)
    ensures Find(chats, ChatKey, id).None? ==> r == chats
    ensures Find(chats, ChatKey, id).Some? ==>
      var k := Find(chats, ChatKey, id).value;
      r == [chats[k].(lastMessage := m)] + chats[..k] + Drop(chats[k + 1..], ChatKey, id)
  {
    match Find(chats, ChatKey, id)
    case None => chats
    case Some(k) =>
      assert chats == chats[..k] + [chats[k]] + chats[k + 1..];
      DropConcat(chats[..k] + [chats[k]], chats[k + 1..], ChatKey, id);
      DropConcat(chats[..k], [chats[k]], ChatKey, id);
      DropAbsent(chats[..k], ChatKey, id);
      [chats[k].(lastMessage := m)] + Drop(chats, ChatKey, id)
  }

  /**
   * With unique ids, moving a chat to the front is a rotation: the list keeps
   * its length, the chat at `k` (with its new last message) comes first, and
   * every other chat keeps its relative order.
   */
  lemma MoveToFrontRotates(chats: seq<Chat>, id: string, m: Message, k: nat)
    requires UniqueIds(chats)
    requires k < |chats| && chats[k].id == id
    ensures Find(chats, ChatKey, id) == Some(k)
    ensures MoveToFront(chats, id, m) == [chats[k].(lastMessage := m)] + chats[..k] + chats[k + 1..]
    ensures |MoveToFront(chats, id, m)| == |chats|
    ensures multiset(MoveToFront(chats, id, m)) == multiset(chats) - multiset{chats[k]} + multiset{chats[k].(lastMessage := m)}
  {
    FindUnique(chats, id, k);
    var rest := chats[k + 1..];
    assert forall j :: 0 <= j < |rest| ==> rest[j] == chats[k + 1 + j];
    DropAbsent(rest, ChatKey, id);
    SplitMultiset(chats, k);
  }

  lemma FindUnique(chats: seq<Chat>, id: string, k: nat)
    requires UniqueIds(chats)
    requires k < |chats| && chats[k].id == id
    ensures Find(chats, ChatKey, id) == Some(k)
  {
    assert ChatKey(chats[k]) == id;
  }

  lemma SplitMultiset<T>(s: seq<T>, k: nat)
    requires k < |s|
    ensures multiset(s[..k] + s[k + 1..]) == multiset(s) - multiset{s[k]}
  {
    assert s == s[..k] + [s[k]] + s[k + 1..];
  }

  /**
   * Updates, in place, the last message of the first chat with id `id`
   * (`chat.lastMessage = m` after `find`); every other position is untouched.
   */
  function SetLastMessage(chats: seq<Chat>, id: string, m: Message): (r: seq<Chat>)
    ensures |r| == |chats|
    ensures Find(chats, ChatKey, id).None? ==> r == chats
    ensures Find(chats, ChatKey, id).Some? ==>
      var k := Find(chats, ChatKey, id).value;
      r == chats[k := chats[k].(lastMessage := m)]
  {
    if |chats| == 0 then []
    else if chats[0].id == id then [chats[0].(lastMessage := m)] + chats[1..]
    else
      var r := [chats[0]] + SetLastMessage(chats[1..], id, m);
      assert forall j :: 1 <= j < |chats| ==> chats[j] == chats[1..][j - 1];
      r
  }

  /**
   * Prepends `c` unless a chat with its id is already listed. Either way the
   * chat's id is listed afterwards, the old list is a suffix of the new one,
   * and unique ids stay unique.
   */
  function PrependIfNew(chats: seq<Chat>, c: Chat): (r: seq<Chat>)
    ensures Find(r, ChatKey, c.id).Some?
    ensures |r| == if Find(chats, ChatKey, c.id).Some? then |chats| else |chats| + 1
    ensures r[|r| - |chats|..] == chats
    ensures Find(chats, ChatKey, c.id).None? ==> r == [c] + chats
    ensures Find(chats, ChatKey, c.id).Some? ==> r == chats
    ensures UniqueIds(chats) ==> UniqueIds(r)
  {
    if Find(chats, ChatKey, c.id).Some? then chats
    else
      var r := [c] + chats;
      assert ChatKey(r[0]) == c.id;
      r
  }

  /** No message in `msgs` has id `id`. */
  predicate IdFree(msgs: seq<Message>, id: string) {
    forall i :: 0 <= i < |msgs| ==> msgs[i].id != id
  }

  /** `msgs.map(x => x.id === id ? saved : x)`: every entry with id `id` becomes `saved`. */
  function ReplaceById(msgs: seq<Message>, id: string, saved: Message): (r: seq<Message>)
    ensures |r| == |msgs|
    ensures forall i :: 0 <= i < |msgs| ==> r[i] == (if msgs[i].id == id then saved else msgs[i])
  {
    if |msgs| == 0 then []
    else
      var head := if msgs[0].id == id then saved else msgs[0];
      var r := [head] + ReplaceById(msgs[1..], id, saved);
      assert forall i :: 1 <= i < |msgs| ==> msgs[i] == msgs[1..][i - 1];
      r
  }

  /** `msgs.filter(x => x.id !== id)`: the order-preserving filter `Drop` on message ids. */
  function RemoveById(msgs: seq<Message>, id: string): (r: seq<Message>)
    ensures r == Drop(msgs, MessageKey, id)
    ensures |r| <= |msgs|
    ensures forall x :: x in r <==> x in msgs && x.id != id
  {
    var r := Drop(msgs, MessageKey, id);
    forall x ensures x in r <==> x in msgs && x.id != id {
      DropMembers(msgs, MessageKey, id, x);
    }
    r
  }

  /** Replacing a temporary entry whose id occurs nowhere else touches only that entry. */
  lemma ReplaceFreshEntry(before: seq<Message>, temp: Message, after: seq<Message>, saved: Message)
    requires IdFree(before, temp.id) && IdFree(after, temp.id)
    ensures ReplaceById(before + [temp] + after, temp.id, saved) == before + [saved] + after
  {
    var s := before + [temp] + after;
    var r := ReplaceById(s, temp.id, saved);
    var e := before + [saved] + after;
    forall i | 0 <= i < |s|
      ensures r[i] == e[i]
    {
      if i < |before| {
        assert s[i] == before[i];
      } else if i > |before| {
        assert s[i] == after[i - |before| - 1];
      }
    }
  }

  /** Removing a temporary entry whose id occurs nowhere else restores the list around it. */
  lemma RemoveFreshEntry(before: seq<Message>, temp: Message, after: seq<Message>)
    requires IdFree(before, temp.id) && IdFree(after, temp.id)
    ensures RemoveById(before + [temp] + after, temp.id) == before + after
  {
    DropFreshEntry(before, temp, after);
  }

  lemma {:induction false} DropFreshEntry(before: seq<Message>, temp: Message, after: seq<Message>)
    requires IdFree(before, temp.id) && IdFree(after, temp.id)
    ensures Drop(before + [temp] + after, MessageKey, temp.id) == before + after
  {
    var k := temp.id;
    DropConcat(before + [temp], after, MessageKey, k);
    DropConcat(before, [temp], MessageKey, k);
    DropIdFree(before, k);
    DropIdFree(after, k);
    DropOwnKey(temp);
  }

  lemma DropOwnKey(m: Message)
    ensures Drop([m], MessageKey, m.id) == []
  {
    DropOne(m, MessageKey, m.id);
  }

  lemma DropIdFree(msgs: seq<Message>, id: string)
    requires IdFree(msgs, id)
    ensures Drop(msgs, MessageKey, id) == msgs
  {
    assert forall j :: 0 <= j < |msgs| ==> MessageKey(msgs[j]) != id;
    DropAbsent(msgs, MessageKey, id);
  }

  /** A history of messages that all carry server-assigned ids has room for any temporary id. */
  lemma ServerIdsLeaveTempFree(msgs: seq<Message>, times: seq<nat>, now: nat)
    requires |times| == |msgs|
    requires forall i :: 0 <= i < |msgs| ==> msgs[i].id == ServerId(times[i])
    ensures IdFree(msgs, TempId(now))
  {
    forall i | 0 <= i < |msgs|
      ensures msgs[i].id != TempId(now)
    {
      TempIdNotServerId(now, times[i]);
    }
  }

  /** The chat partner: the first member of `users` whose id differs from `me` (`users.find(u => u.id !== me)`). */
  function FirstOther(users: seq<User>, me: Option<string>): (r: Option<User>)
    ensures r.None? <==> forall i :: 0 <= i < |users| ==> Some(users[i].id) == me
    ensures r.Some? ==> exists k :: (0 <= k < |users| && users[k] == r.value && Some(users[k].id) != me
      && forall j :: 0 <= j < k ==> Some(users[j].id) == me)
  {
    if |users| == 0 then None
    else if Some(users[0].id) != me then Some(users[0])
    else
      var r := FirstOther(users[1..], me);
      assert forall i :: 1 <= i < |users| ==> users[i] == users[1..][i - 1];
      if r.Some? then
        var k :| 0 <= k < |users[1..]| && users[1..][k] == r.value && Some(users[1..][k].id) != me
          && forall j :: 0 <= j < k ==> Some(users[1..][j].id) == me;
        assert users[k + 1] == r.value;
        r
      else r
  }

  /** Newest last message first. */
  predicate NewestFirst(chats: seq<Chat>) {
    forall i, j :: 0 <= i < j < |chats| ==> chats[i].lastMessage.timestamp >= chats[j].lastMessage.timestamp
  }

  /** Inserts `c` into a newest-first list ahead of every chat that is not newer. */
  function InsertByTime(c: Chat, sorted: seq<Chat>): (r: seq<Chat>)
    requires NewestFirst(sorted)
    ensures NewestFirst(r)
    ensures multiset(r) == multiset(sorted) + multiset{c}
    ensures |r| == |sorted| + 1
    ensures r[0] == c || (|sorted| > 0 && r[0] == sorted[0])
  {
    if |sorted| == 0 || sorted[0].lastMessage.timestamp <= c.lastMessage.timestamp then
      [c] + sorted
    else
      var rest := InsertByTime(c, sorted[1..]);
      assert sorted == [sorted[0]] + sorted[1..];
      [sorted[0]] + rest
  }

  /**
   * The chat list newest first: a stable sort on the last message's
   * timestamp, as `[...chats].sort((a, b) => b.ts - a.ts)` computes.
   */
  function SortNewestFirst(chats: seq<Chat>): (r: seq<Chat>)
    ensures NewestFirst(r)
    ensures multiset(r) == multiset(chats)
    ensures |r| == |chats|
  {
    if |chats| == 0 then []
    else
      assert chats == [chats[0]] + chats[1..];
      InsertByTime(chats[0], SortNewestFirst(chats[1..]))
  }
}

=== FILE: chat_page.dfy ===
/**
 * The signed-in chat page: the chat list, the open conversation, the user
 * search box, and the handlers that update them. Each handler is one atomic
 * transition; what arrives asynchronously (a saved message, a created chat,
 * search results) is an input.
 */
module ChatPage {
  import opened Options
  import opened Domain
  import Text
  import ChatList
  import MessageStore
  import Server

  datatype Page = Page(
    chats: seq<Chat>,
    selectedChatId: Option<string>,
    messages: seq<Message>,
    searchQuery: string,
    searchResults: seq<User>,
    isSearching: bool)

  predicate HasSelection(p: Page) {
    Selected(p.selectedChatId)
  }

  /** The live message `m` is for the open conversation (`m.chatId === selectedChatId`). */
  predicate ForOpenChat(p: Page, m: Message) {
    m.chatId.Some? && m.chatId == p.selectedChatId
  }

  /** The chat `m` names is in the list. */
  predicate KnownChat(p: Page, m: Message) {
    m.chatId.Some? && ChatList.Find(p.chats, ChatKey, m.chatId.value).Some?
  }

  /**
   * The `newMessage` socket handler: the chat the message belongs to moves to
   * the front with the message as its last message, and the message is appended
   * to the open conversation if it is for that chat. Nothing else changes.
   */
  function OnNewMessage(p: Page, m: Message): (r: Page)
    ensures r.selectedChatId == p.selectedChatId && r.searchQuery == p.searchQuery
    ensures r.searchResults == p.searchResults && r.isSearching == p.isSearching
    ensures !KnownChat(p, m) ==> r.chats == p.chats
    ensures KnownChat(p, m) ==> |r.chats| >= 1 && r.chats[0].id == m.chatId.value && r.chats[0].lastMessage == m
    ensures KnownChat(p, m) ==>
      var k := ChatList.Find(p.chats, ChatKey, m.chatId.value).value;
      r.chats == [p.chats[k].(lastMessage := m)] + p.chats[..k] + ChatList.Drop(p.chats[k + 1..], ChatKey, m.chatId.value)
    ensures |r.chats| <= |p.chats|
    ensures ForOpenChat(p, m) ==> r.messages == p.messages + [m]
    ensures !ForOpenChat(p, m) ==> r.messages == p.messages
  {
    var chats := match m.chatId
      case None => p.chats
      case Some(id) => ChatList.MoveToFront(p.chats, id, m);
    var messages := if ForOpenChat(p, m) then p.messages + [m] else p.messages;
    p.(chats := chats, messages := messages)
  }

  /** With unique chat ids, a live message for the chat at `k` rotates it to the front and keeps every other chat in order. */
  lemma NewMessageRotates(p: Page, m: Message, k: nat)
    requires ChatList.UniqueIds(p.chats)
    requires k < |p.chats| && m.chatId == Some(p.chats[k].id)
    ensures OnNewMessage(p, m).chats == [p.chats[k].(lastMessage := m)] + p.chats[..k] + p.chats[k + 1..]
    ensures |OnNewMessage(p, m).chats| == |p.chats|
  {
    ChatList.MoveToFrontRotates(p.chats, m.chatId.value, m, k);
  }

  /** The optimistic entry shown while a send is in flight. */
  function TempMessage(user: User, content: Content, now: nat): Message {
    Message(TempId(now), None, content.text, content.audio, now, user.id)
  }

  /**
   * First half of `handleSendMessage`: without a selected chat or a user,
   * nothing happens; otherwise a temporary message from the user is appended.
   */
  function BeginSend(p: Page, user: Option<User>, content: Content, now: nat): (r: (Page, Option<Pending>))
    ensures !HasSelection(p) || user.None? ==> r.0 == p && r.1.None?
    ensures HasSelection(p) && user.Some? ==>
      && r.1 == Some(Pending(p.selectedChatId.value, TempId(now)))
      && |r.0.messages| == |p.messages| + 1
      && r.0.messages[..|p.messages|] == p.messages
      && var t := r.0.messages[|p.messages|];
      && t.id == TempId(now) && t.senderId == user.value.id
      && t.text == content.text && t.audio == content.audio
      && r.0.messages == p.messages + [TempMessage(user.value, content, now)]
      && t.timestamp == now && t.chatId.None?
    ensures r.0.chats == p.chats && r.0.selectedChatId == p.selectedChatId
    ensures r.0.searchQuery == p.searchQuery && r.0.searchResults == p.searchResults && r.0.isSearching == p.isSearching
  {
    if !HasSelection(p) || user.None? then (p, None)
    else
      var t := TempMessage(user.value, content, now);
      (p.(messages := p.messages + [t]), Some(Pending(p.selectedChatId.value, t.id)))
  }

  /**
   * The request `createMessage(selectedChatId, content)` puts on the wire. The
   * client API takes `(chatId, senderId, content)`, so the content object lands
   * in `senderId` (`sender` is however the server reads it) and the body
   * carries neither text nor audio.
   */
  function SendRequest(chatId: string, sender: Option<string>): Server.Request {
    Server.Request(Some(chatId), sender, None, None)
  }

  /** Whatever `senderId` becomes, the server answers every such send with 400 and stores nothing. */
  lemma SendAlwaysRejected(db: MessageStore.Store, chatId: string, sender: Option<string>, now: nat)
    ensures Server.PostMessage(db, SendRequest(chatId, sender), now) == (db, Server.BadRequest)
    ensures !Server.Accepts(SendRequest(chatId, sender))
  {
  }

  /**
   * Second half of `handleSendMessage`, once the server answers: on success
   * the temporary entry is replaced by the saved message and the chat moves to
   * the front; on failure the temporary entry is removed.
   */
  function FinishSend(p: Page, pending: Pending, saved: Option<Message>): (r: Page)
    ensures r.selectedChatId == p.selectedChatId && r.searchQuery == p.searchQuery
    ensures r.searchResults == p.searchResults && r.isSearching == p.isSearching
    ensures saved.Some? ==> |r.messages| == |p.messages|
    ensures saved.Some? ==> forall i :: 0 <= i < |p.messages| ==>
      r.messages[i] == (if p.messages[i].id == pending.tempId then saved.value else p.messages[i])
    ensures saved.Some? && ChatList.Find(p.chats, ChatKey, pending.chatId).None? ==> r.chats == p.chats
    ensures saved.Some? && ChatList.Find(p.chats, ChatKey, pending.chatId).Some? ==>
      var k := ChatList.Find(p.chats, ChatKey, pending.chatId).value;
      r.chats == [p.chats[k].(lastMessage := saved.value)] + p.chats[..k] + ChatList.Drop(p.chats[k + 1..], ChatKey, pending.chatId)
    ensures saved.None? ==> r.chats == p.chats
    ensures saved.None? ==> forall x :: x in r.messages <==> x in p.messages && x.id != pending.tempId
    ensures saved.None? ==> r.messages == ChatList.Drop(p.messages, MessageKey, pending.tempId)
  {
    match saved
    case Some(s) =>
      p.(messages := ChatList.ReplaceById(p.messages, pending.tempId, s),
         chats := ChatList.MoveToFront(p.chats, pending.chatId, s))
    case None =>
      p.(messages := ChatList.RemoveById(p.messages, pending.tempId))
  }

  /**
   * However many live messages arrived meanwhile (`after`), finishing a send
   * touches only the temporary entry: success puts the saved message in its
   * place, failure takes it out.
   */
  lemma FinishSendTouchesOnlyTemp(p: Page, pending: Pending, before: seq<Message>, t: Message, after: seq<Message>, saved: Message)
    requires p.messages == before + [t] + after && t.id == pending.tempId
    requires ChatList.IdFree(before, t.id) && ChatList.IdFree(after, t.id)
    ensures FinishSend(p, pending, Some(saved)).messages == before + [saved] + after
    ensures FinishSend(p, pending, None).messages == before + after
  {
    ChatList.ReplaceFreshEntry(before, t, after, saved);
    ChatList.RemoveFreshEntry(before, t, after);
  }

  /**
   * A failed send leaves the conversation and the chat list as they were
   * before it started; a successful one adds exactly the saved message.
   */
  lemma SendRoundTrip(p: Page, user: User, content: Content, now: nat, saved: Message)
    requires HasSelection(p)
    requires ChatList.IdFree(p.messages, TempId(now))
    ensures var (q, pending) := BeginSend(p, Some(user), content, now);
      && pending.Some?
      && FinishSend(q, pending.value, None).messages == p.messages
      && FinishSend(q, pending.value, None).chats == p.chats
      && FinishSend(q, pending.value, Some(saved)).messages == p.messages + [saved]
  {
    var (q, pending) := BeginSend(p, Some(user), content, now);
    var t := q.messages[|p.messages|];
    assert q.messages == p.messages + [t] + [];
    FinishSendTouchesOnlyTemp(q, pending.value, p.messages, t, [], saved);
  }

  /** `handleSelectChat`: opens the chat and clears the search box and its results. */
  function SelectChat(p: Page, chatId: string): (r: Page)
    ensures r.selectedChatId == Some(chatId)
    ensures r.searchQuery == "" && r.searchResults == []
    ensures r.chats == p.chats && r.messages == p.messages && r.isSearching == p.isSearching
  {
    p.(selectedChatId := Some(chatId), searchQuery := "", searchResults := [])
  }

  /**
   * The messages effect after a selection: the list is cleared, then filled
   * with what the server returned (or left empty if the fetch failed).
   */
  function LoadMessages(p: Page, fetched: Option<seq<Message>>): (r: Page)
    ensures !HasSelection(p) ==> r == p
    ensures HasSelection(p) ==> r.messages == (if fetched.Some? then fetched.value else [])
    ensures r.chats == p.chats && r.selectedChatId == p.selectedChatId
    ensures r.searchQuery == p.searchQuery && r.searchResults == p.searchResults && r.isSearching == p.isSearching
  {
    if !HasSelection(p) then p
    else p.(messages := match fetched case Some(ms) => ms case None => [])
  }

  /**
   * `handleStartChat` once the server has created (or found) the chat: it is
   * prepended unless a chat with its id is listed already, and it becomes the
   * open chat. A failed request changes nothing.
   */
  function StartChat(p: Page, created: Option<Chat>): (r: Page)
    ensures created.None? ==> r == p
    ensures created.Some? ==>
      && r.selectedChatId == Some(created.value.id)
      && ChatList.Find(r.chats, ChatKey, created.value.id).Some?
      && r.searchQuery == "" && r.searchResults == []
      && r.messages == p.messages && r.isSearching == p.isSearching
      && |r.chats| >= |p.chats| && r.chats[|r.chats| - |p.chats|..] == p.chats
      && (ChatList.UniqueIds(p.chats) ==> ChatList.UniqueIds(r.chats))
    ensures created.Some? && ChatList.Find(p.chats, ChatKey, created.value.id).Some? ==> r.chats == p.chats
    ensures created.Some? && ChatList.Find(p.chats, ChatKey, created.value.id).None? ==> r.chats == [created.value] + p.chats
  {
    match created
    case None => p
    case Some(c) => SelectChat(p.(chats := ChatList.PrependIfNew(p.chats, c)), c.id)
  }

  /**
   * The search effect when the query changes: a blank query clears the
   * results and stops searching; any other query starts a (debounced) search
   * and keeps the current results until it answers.
   */
  function SearchQueryChanged(p: Page): (r: Page)
    ensures r.isSearching <==> !Text.AllSpace(p.searchQuery)
    ensures Text.AllSpace(p.searchQuery) ==> r.searchResults == []
    ensures !Text.AllSpace(p.searchQuery) ==> r.searchResults == p.searchResults
    ensures r.searchQuery == p.searchQuery && r.chats == p.chats && r.messages == p.messages
    ensures r.selectedChatId == p.selectedChatId
  {
    if Text.Trim(p.searchQuery) == "" then p.(searchResults := [], isSearching := false)
    else p.(isSearching := true)
  }

  /** The debounced search answers: results replace the old ones on success; searching stops either way. */
  function SearchFinished(p: Page, results: Option<seq<User>>): (r: Page)
    ensures !r.isSearching
    ensures results.Some? ==> r.searchResults == results.value
    ensures results.None? ==> r.searchResults == p.searchResults
    ensures r.chats == p.chats && r.messages == p.messages && r.selectedChatId == p.selectedChatId
    ensures r.searchQuery == p.searchQuery
  {
    p.(searchResults := if results.Some? then results.value else p.searchResults, isSearching := false)
  }

  /** Selecting a chat, and the search effect its cleared query triggers, leave no search running and no results. */
  lemma SelectEndsSearch(p: Page, chatId: string)
    ensures !SearchQueryChanged(SelectChat(p, chatId)).isSearching
    ensures SearchQueryChanged(SelectChat(p, chatId)).searchResults == []
    ensures SearchQueryChanged(SelectChat(p, chatId)).selectedChatId == Some(chatId)
  {
  }

  /** The chat shown in the conversation pane and the partner in it: the first member who is not the signed-in user. */
  function ChatPartner(p: Page, user: Option<User>): (r: Option<User>)
    ensures p.selectedChatId.None? ==> r.None?
    ensures p.selectedChatId.Some? && ChatList.Find(p.chats, ChatKey, p.selectedChatId.value).None? ==> r.None?
    ensures r.Some? ==>
      var k := ChatList.Find(p.chats, ChatKey, p.selectedChatId.value);
      && k.Some?
      && r.value in p.chats[k.value].users
      && (user.Some? ==> r.value.id != user.value.id)
    ensures p.selectedChatId.Some? && ChatList.Find(p.chats, ChatKey, p.selectedChatId.value).Some? ==>
      var users := p.chats[ChatList.Find(p.chats, ChatKey, p.selectedChatId.value).value].users;
      && r == ChatList.FirstOther(users, if user.Some? then Some(user.value.id) else None)
      && (user.None? ==> r == if |users| == 0 then None else Some(users[0]))
      && (user.Some? ==> (r.None? <==> forall i :: 0 <= i < |users| ==> users[i].id == user.value.id))
  {
    match p.selectedChatId
    case None => None
    case Some(id) =>
      match ChatList.Find(p.chats, ChatKey, id)
      case None => None
      case Some(k) => ChatList.FirstOther(p.chats[k].users, if user.Some? then Some(user.value.id) else None)
  }
}

=== FILE: domain.dfy ===
/**
 * The entities the chat application passes around. Timestamps are integer
 * milliseconds; ids and names are strings.
 */
module Domain {
  import opened Options
  import Text

  datatype User = User(id: string, name: string, avatarUrl: string, isOnline: bool)

  datatype Audio = Audio(dataUrl: string)

  /**
   * A chat message. `chatId` is read by the client's live-message handler
   * although the declared message shape omits it, so it is optional here;
   * messages the server creates do not carry it.
   */
  datatype Message = Message(
    id: string,
    chatId: Option<string>,
    text: Option<string>,
    audio: Option<Audio>,
    timestamp: int,
    senderId: string)

  datatype Chat = Chat(id: string, users: seq<User>, lastMessage: Message, unreadCount: int)

  /** What a composer hands to a send handler: text, a voice note, or both. */
  datatype Content = Content(text: Option<string>, audio: Option<Audio>)

  /** A send awaiting the server: the chat it went to and its temporary id. */
  datatype Pending = Pending(chatId: string, tempId: string)

  /** JavaScript truthiness of a selected chat id: present and non-empty. */
  predicate Selected(chatId: Option<string>) {
    chatId.Some? && chatId.value != ""
  }

  function ChatKey(c: Chat): string { c.id }

  function MessageKey(m: Message): string { m.id }

  /** The id `temp-<now>` an optimistic message carries until the server answers. */
  function TempId(now: nat): (r: string)
    ensures |r| > 5 && r[..5] == "temp-"
  {
    "temp-" + Text.NatToString(now)
  }

  /** The id `msg-<now>` the server (and the mock service) gives a created message. */
  function ServerId(now: nat): (r: string)
    ensures |r| > 4 && r[..4] == "msg-"
  {
    "msg-" + Text.NatToString(now)
  }

  /** A temporary id never collides with a server-assigned id. */
  lemma TempIdNotServerId(a: nat, b: nat)
    ensures TempId(a) != ServerId(b)
  {
    assert TempId(a)[0] == 't' && ServerId(b)[0] == 'm';
  }

  /** Temporary ids taken at different milliseconds differ. */
  lemma TempIdInjective(a: nat, b: nat)
    requires TempId(a) == TempId(b)
    ensures a == b
  {
    assert Text.NatToString(a) == TempId(a)[5..];
    assert Text.NatToString(b) == TempId(b)[5..];
    Text.NatToStringInjective(a, b);
  }
}

=== FILE: options.dfy ===
/** The optional value used wherever the source writes `T | null` or `T | undefined`. */
module Options {

  datatype Option<+T> = None | Some(value: T)
}

=== FILE: root_app.dfy ===
/**
 * The stand-alone messenger page backed by the mock service. It has no
 * sign-in: the current user is always `user-0`.
 */
module RootApp {
  import opened Options
  import opened Domain
  import ChatList
  import MessageStore
  import MockApi

  const CurrentUserId: string := "user-0"

  datatype Page = Page(chats: seq<Chat>, selectedChatId: Option<string>, messages: seq<Message>)

  predicate HasSelection(p: Page) {
    Selected(p.selectedChatId)
  }

  /**
   * First half of `handleSendMessage`: without a selected chat nothing
   * happens; otherwise a temporary text message from `user-0` is appended.
   */
  function BeginSend(p: Page, text: string, now: nat): (r: (Page, Option<Pending>))
    ensures !HasSelection(p) ==> r.0 == p && r.1.None?
    ensures HasSelection(p) ==>
      && r.1 == Some(Pending(p.selectedChatId.value, TempId(now)))
      && |r.0.messages| == |p.messages| + 1
      && r.0.messages[..|p.messages|] == p.messages
      && var t := r.0.messages[|p.messages|];
      && t.id == TempId(now) && t.senderId == CurrentUserId && t.text == Some(text)
      && t.audio.None? && t.timestamp == now && t.chatId.None?
      && r.0.messages == p.messages + [Message(TempId(now), None, Some(text), None, now, CurrentUserId)]
    ensures r.0.chats == p.chats && r.0.selectedChatId == p.selectedChatId
  {
    if !HasSelection(p) then (p, None)
    else
      var t := Message(TempId(now), None, Some(text), None, now, CurrentUserId);
      (p.(messages := p.messages + [t]), Some(Pending(p.selectedChatId.value, t.id)))
  }

  /**
   * Second half of `handleSendMessage`: on success the temporary entry is
   * replaced by the saved message and the chat moves to the front (the list is
   * unchanged if the chat is gone); on failure the temporary entry is removed.
   */
  function FinishSend(p: Page, pending: Pending, saved: Option<Message>): (r: Page)
    ensures r.selectedChatId == p.selectedChatId
    ensures saved.Some? ==> |r.messages| == |p.messages|
    ensures saved.Some? ==> forall i :: 0 <= i < |p.messages| ==>
      r.messages[i] == (if p.messages[i].id == pending.tempId then saved.value else p.messages[i])
    ensures saved.Some? && ChatList.Find(p.chats, ChatKey, pending.chatId).None? ==> r.chats == p.chats
    ensures saved.Some? && ChatList.Find(p.chats, ChatKey, pending.chatId).Some? ==>
      var k := ChatList.Find(p.chats, ChatKey, pending.chatId).value;
      r.chats == [p.chats[k].(lastMessage := saved.value)] + p.chats[..k] + ChatList.Drop(p.chats[k + 1..], ChatKey, pending.chatId)
    ensures saved.None? ==> r.chats == p.chats
    ensures saved.None? ==> forall x :: x in r.messages <==> x in p.messages && x.id != pending.tempId
    ensures saved.None? ==> r.messages == ChatList.Drop(p.messages, MessageKey, pending.tempId)
  {
    match saved
    case Some(s) =>
      p.(messages := ChatList.ReplaceById(p.messages, pending.tempId, s),
         chats := ChatList.MoveToFront(p.chats, pending.chatId, s))
    case None =>
      p.(messages := ChatList.RemoveById(p.messages, pending.tempId))
  }

  /**
   * A send answered by the mock service ends with the open conversation
   * holding the saved message (same text, sender `user-0`) where the
   * temporary one was, and with the chat at the front of a list of the same
   * length when chat ids are unique.
   */
  lemma SendWithMockService(p: Page, db: MessageStore.Store, text: string, now: nat, later: nat, k: nat)
    requires HasSelection(p)
    requires ChatList.IdFree(p.messages, TempId(now))
    requires ChatList.UniqueIds(p.chats)
    requires k < |p.chats| && p.chats[k].id == p.selectedChatId.value
    ensures var (q, pending) := BeginSend(p, text, now);
      var saved := MockApi.CreateMessage(db, p.selectedChatId.value, text, CurrentUserId, later).1;
      var r := FinishSend(q, pending.value, Some(saved));
      && r.messages == p.messages + [saved]
      && saved.text == Some(text) && saved.senderId == CurrentUserId
      && r.chats == [p.chats[k].(lastMessage := saved)] + p.chats[..k] + p.chats[k + 1..]
  {
    var (q, pending) := BeginSend(p, text, now);
    var saved := MockApi.CreateMessage(db, p.selectedChatId.value, text, CurrentUserId, later).1;
    var t := q.messages[|p.messages|];
    assert q.messages == p.messages + [t] + [];
    ChatList.ReplaceFreshEntry(p.messages, t, [], saved);
    ChatList.MoveToFrontRotates(p.chats, p.selectedChatId.value, saved, k);
  }

  /** A failed send restores the conversation to what it was before the send. */
  lemma FailedSendRestores(p: Page, text: string, now: nat)
    requires HasSelection(p)
    requires ChatList.IdFree(p.messages, TempId(now))
    ensures var (q, pending) := BeginSend(p, text, now);
      FinishSend(q, pending.value, None) == p
  {
    var (q, pending) := BeginSend(p, text, now);
    var t := q.messages[|p.messages|];
    assert q.messages == p.messages + [t] + [];
    ChatList.RemoveFreshEntry(p.messages, t, []);
  }

  /** `handleSelectChat`: opens the chat. */
  function SelectChat(p: Page, chatId: string): (r: Page)
    ensures r.selectedChatId == Some(chatId) && r.chats == p.chats && r.messages == p.messages
  {
    p.(selectedChatId := Some(chatId))
  }

  /** The partner shown for the open chat: its first member other than `user-0`. */
  function ChatPartner(p: Page): (r: Option<User>)
    ensures r.Some? ==> p.selectedChatId.Some?
    ensures r.Some? ==>
      var k := ChatList.Find(p.chats, ChatKey, p.selectedChatId.value);
      && k.Some? && r.value in p.chats[k.value].users && r.value.id != CurrentUserId
    ensures p.selectedChatId.Some? && ChatList.Find(p.chats, ChatKey, p.selectedChatId.value).None? ==> r.None?
    ensures p.selectedChatId.Some? && ChatList.Find(p.chats, ChatKey, p.selectedChatId.value).Some? ==>
      var users := p.chats[ChatList.Find(p.chats, ChatKey, p.selectedChatId.value).value].users;
      && r == ChatList.FirstOther(users, Some(CurrentUserId))
      && (r.None? <==> forall i :: 0 <= i < |users| ==> users[i].id == CurrentUserId)
      && (r.Some? ==> exists i :: (0 <= i < |users| && r.value == users[i]
            && forall j :: 0 <= j < i ==> users[j].id == CurrentUserId))
  {
    match p.selectedChatId
    case None => None
    case Some(id) =>
      match ChatList.Find(p.chats, ChatKey, id)
      case None => None
      case Some(k) => ChatList.FirstOther(p.chats[k].users, Some(CurrentUserId))
  }
}

=== FILE: store.dfy ===
/**
 * The in-memory message store the HTTP server keeps: a map from chat id to
 * that chat's messages, and the list of chats.
 */
module MessageStore {
  import opened Options
  import opened Domain
  import ChatList

  datatype Store = Store(messages: map<string, seq<Message>>, chats: seq<Chat>)

  /** The messages stored for `chatId`, or none for a chat the store does not know (`db[chatId] || []`). */
  function MessagesOf(db: Store, chatId: string): (r: seq<Message>)
    ensures chatId !in db.messages ==> r == []
    ensures chatId in db.messages ==> r == db.messages[chatId]
  {
    if chatId in db.messages then db.messages[chatId] else []
  }
}

/** The HTTP endpoints of the chat server over the in-memory store. */
module Server {
  import opened Options
  import opened Domain
  import opened MessageStore
  import ChatList

  /** The JSON body of `POST /api/messages`; absent fields are `None`. */
  datatype Request = Request(chatId: Option<string>, senderId: Option<string>, text: Option<string>, audio: Option<Audio>)

  datatype Response = BadRequest | Created(message: Message)

  /** JavaScript truthiness of an optional string: present and non-empty. */
  predicate Truthy(s: Option<string>) {
    s.Some? && s.value != ""
  }

  /** The server's validation: a chat id, a sender id, and text or audio. */
  predicate Accepts(req: Request) {
    Truthy(req.chatId) && (Truthy(req.text) || req.audio.Some?) && Truthy(req.senderId)
  }

  /**
   * `POST /api/messages` at time `now`: a request that fails validation is
   * answered 400 and changes nothing; otherwise the new message is appended to
   * its chat's list (created if missing) and becomes the chat's last message.
   */
  function PostMessage(db: Store, req: Request, now: nat): (r: (Store, Response))
    ensures r.1.BadRequest? <==> !Accepts(req)
    ensures r.1.BadRequest? ==> r.0 == db
    ensures r.1.Created? ==>
      var m := r.1.message;
      && m.senderId == req.senderId.value
      && (m.text.Some? || m.audio.Some?)
      && m.text == (if Truthy(req.text) then req.text else None)
      && m.audio == req.audio
      && m.id == ServerId(now) && m.timestamp == now
  {
    if !Accepts(req) then (db, BadRequest)
    else
      var m := Message(ServerId(now), None, if Truthy(req.text) then req.text else None, req.audio, now, req.senderId.value);
      var chatId := req.chatId.value;
      var messages := db.messages[chatId := MessagesOf(db, chatId) + [m]];
      (Store(messages, ChatList.SetLastMessage(db.chats, chatId, m)), Created(m))
  }

  /** An accepted message is listed last for its chat; every other chat's messages are untouched. */
  lemma PostAppends(db: Store, req: Request, now: nat, other: string)
    requires Accepts(req)
    ensures PostMessage(db, req, now).1.Created?
    ensures MessagesOf(PostMessage(db, req, now).0, req.chatId.value)
         == MessagesOf(db, req.chatId.value) + [PostMessage(db, req, now).1.message]
    ensures other != req.chatId.value ==> MessagesOf(PostMessage(db, req, now).0, other) == MessagesOf(db, other)
  {
  }

  /**
   * An accepted message updates only the chat it names: that chat's last
   * message becomes the new message, and the list keeps its length and order.
   */
  lemma PostUpdatesLastMessage(db: Store, req: Request, now: nat, k: nat)
    requires Accepts(req)
    requires ChatList.UniqueIds(db.chats)
    requires k < |db.chats| && db.chats[k].id == req.chatId.value
    ensures PostMessage(db, req, now).1.Created?
    ensures PostMessage(db, req, now).0.chats
         == db.chats[k := db.chats[k].(lastMessage := PostMessage(db, req, now).1.message)]
  {
    ChatList.FindUnique(db.chats, req.chatId.value, k);
  }

  /** A message for a chat the store does not list leaves the chat list as it was. */
  lemma PostUnknownChat(db: Store, req: Request, now: nat)
    requires Accepts(req)
    requires forall j :: 0 <= j < |db.chats| ==> db.chats[j].id != req.chatId.value
    ensures PostMessage(db, req, now).0.chats == db.chats
  {
    assert ChatList.Find(db.chats, ChatKey, req.chatId.value).None?;
  }

  /**
   * After posting at a time later than every stored chat's last message, the
   * newest-first listing starts with the chat just written to.
   */
  lemma PostThenListFirst(db: Store, req: Request, now: nat, k: nat)
    requires Accepts(req)
    requires ChatList.UniqueIds(db.chats)
    requires k < |db.chats| && db.chats[k].id == req.chatId.value
    requires forall j :: 0 <= j < |db.chats| ==> db.chats[j].lastMessage.timestamp < now
    ensures GetChats(PostMessage(db, req, now).0)[0].id == req.chatId.value
  {
    PostUpdatesLastMessage(db, req, now, k);
    var after := PostMessage(db, req, now).0.chats;
    var listed := GetChats(PostMessage(db, req, now).0);
    var u := after[k];
    assert u in multiset(after);
    assert u in listed;
    var first := listed[0];
    assert first in multiset(after);
    var i :| 0 <= i < |after| && after[i] == first;
  }

  /** `GET /api/chats`: every chat, newest last message first, without reordering the store. */
  function GetChats(db: Store): (r: seq<Chat>)
    ensures ChatList.NewestFirst(r)
    ensures multiset(r) == multiset(db.chats)
    ensures |r| == |db.chats|
  {
    ChatList.SortNewestFirst(db.chats)
  }

  /** `GET /api/messages/:chatId`: the stored list in stored order, or the empty list for an unknown chat. */
  function GetMessages(db: Store, chatId: string): (r: seq<Message>)
    ensures chatId !in db.messages ==> r == []
    ensures chatId in db.messages ==> r == db.messages[chatId]
  {
    MessagesOf(db, chatId)
  }
}

/**
 * The client-side mock of the API: the same listings over a local store,
 * and a `createMessage` that builds a message without saving it.
 */
module MockApi {
  import opened Options
  import opened Domain
  import opened MessageStore
  import ChatList
  import Server

  /** `getChats`: copies of all chats, newest last message first, sorted as the server's listing is; the store keeps its order. */
  function GetChats(db: Store): (r: seq<Chat>)
    ensures ChatList.NewestFirst(r)
    ensures multiset(r) == multiset(db.chats)
    ensures |r| == |db.chats|
  {
    Server.GetChats(db)
  }

  /** `getMessages`: copies of the stored messages in order, or none for an unknown chat. */
  function GetMessages(db: Store, chatId: string): (r: seq<Message>)
    ensures |r| == |MessagesOf(db, chatId)|
    ensures forall i :: 0 <= i < |r| ==> r[i] == MessagesOf(db, chatId)[i]
    ensures chatId !in db.messages ==> r == []
  {
    MessagesOf(db, chatId)
  }

  /** `createMessage` at time `now`: a message with the given text and sender; the store is left as it was. */
  function CreateMessage(db: Store, chatId: string, text: string, senderId: string, now: nat): (r: (Store, Message))
    ensures r.0 == db
    ensures r.1.text == Some(text) && r.1.senderId == senderId && r.1.audio.None?
    ensures r.1.id == ServerId(now) && r.1.timestamp == now
  {
    (db, Message(ServerId(now), None, Some(text), None, now, senderId))
  }
}

=== FILE: text.dfy ===
/**
 * String helpers the chat client relies on: JavaScript's `String.prototype.trim`,
 * `Number.prototype.toString` on non-negative integers, and `padStart(2, '0')`.
 */
module Text {

  /** The WhiteSpace and LineTerminator code points of ECMAScript, which `trim` strips. */
  predicate IsSpace(c: char) {
    || c == '\t' || c == '\U{000B}' || c == '\U{000C}' || c == ' ' || c == '\U{00A0}' || c == '\U{FEFF}'
    || c == '\U{1680}' || ('\U{2000}' <= c <= '\U{200A}') || c == '\U{202F}' || c == '\U{205F}' || c == '\U{3000}'
    || c == '\n' || c == '\r' || c == '\U{2028}' || c == '\U{2029}'
  }

  predicate AllSpace(s: string) {
    forall i :: 0 <= i < |s| ==> IsSpace(s[i])
  }

  /** Drops the leading white space: the result is a suffix of `s` preceded only by white space. */
  function TrimStart(s: string): (r: string)
    ensures |r| <= |s| && r == s[|s| - |r|..]
    ensures AllSpace(s[..|s| - |r|])
    ensures r == [] || !IsSpace(r[0])
  {
    if |s| > 0 && IsSpace(s[0]) then
      var r := TrimStart(s[1..]);
      assert s[..|s| - |r|] == [s[0]] + s[1..][..|s| - 1 - |r|];
      r
    else
      s
  }

  /** Drops the trailing white space: the result is a prefix of `s` followed only by white space. */
  function TrimEnd(s: string): (r: string)
    ensures |r| <= |s| && r == s[..|r|]
    ensures AllSpace(s[|r|..])
    ensures r == [] || !IsSpace(r[|r| - 1])
  {
    if |s| > 0 && IsSpace(s[|s| - 1]) then
      var r := TrimEnd(s[..|s| - 1]);
      assert s[|r|..] == s[..|s| - 1][|r|..] + [s[|s| - 1]];
      r
    else
      s
  }

  /**
   * `s.trim()`: the middle slice of `s` left after removing white space at both
   * ends; it is empty exactly when `s` is all white space.
   */
  function Trim(s: string): (r: string)
    ensures exists i :: 0 <= i <= |s| - |r| && r == s[i..i + |r|] && AllSpace(s[..i]) && AllSpace(s[i + |r|..])
    ensures r == [] || (!IsSpace(r[0]) && !IsSpace(r[|r| - 1]))
    ensures r == [] <==> AllSpace(s)
  {
    var t := TrimStart(s);
    var r := TrimEnd(t);
    TrimParts(s, t, r);
    r
  }

  /** How the two one-sided trims compose, stated over slices only. */
  lemma TrimParts(s: string, t: string, r: string)
    requires |t| <= |s| && t == s[|s| - |t|..] && AllSpace(s[..|s| - |t|])
    requires t == [] || !IsSpace(t[0])
    requires |r| <= |t| && r == t[..|r|] && AllSpace(t[|r|..])
    requires r == [] || !IsSpace(r[|r| - 1])
    ensures r == s[|s| - |t|..|s| - |t| + |r|]
    ensures AllSpace(s[|s| - |t| + |r|..])
    ensures r == [] <==> AllSpace(s)
  {
    var i := |s| - |t|;
    assert s[i + |r|..] == t[|r|..];
    if r == [] {
      AllSpaceConcat(s[..i], t);
      assert s == s[..i] + t;
    } else {
      assert r[0] == s[i];
    }
  }

  lemma AllSpaceConcat(a: string, b: string)
    requires AllSpace(a) && AllSpace(b)
    ensures AllSpace(a + b)
  {
  }

  lemma {:induction false} TrimIdempotent(s: string)
    ensures Trim(Trim(s)) == Trim(s)
  {
    var r := Trim(s);
    var t := TrimStart(r);
    if r != [] {
      assert t == r;
      assert TrimEnd(r) == r;
    }
  }

  predicate IsDigit(c: char) {
    '0' <= c <= '9'
  }

  predicate AllDigits(s: string) {
    forall i :: 0 <= i < |s| ==> IsDigit(s[i])
  }

  function DigitValue(c: char): nat
    requires IsDigit(c)
  {
    c as int - '0' as int
  }

  function DigitChar(d: nat): (c: char)
    requires d < 10
    ensures IsDigit(c) && DigitValue(c) == d
  {
    ('0' as int + d) as char
  }

  /** The number a string of decimal digits denotes (leading zeros allowed). */
  function ValueOf(s: string): nat
    requires AllDigits(s)
  {
    if |s| == 0 then 0 else 10 * ValueOf(s[..|s| - 1]) + DigitValue(s[|s| - 1])
  }

  /** `n.toString()` for a non-negative integer: decimal digits without leading zeros. */
  function NatToString(n: nat): (r: string)
    ensures 1 <= |r| && AllDigits(r) && ValueOf(r) == n
    ensures |r| > 1 ==> r[0] != '0'
    ensures n < 10 ==> |r| == 1
    ensures n < 100 ==> |r| <= 2
  {
    if n < 10 then
      [DigitChar(n)]
    else
      var p := NatToString(n / 10);
      var r := p + [DigitChar(n % 10)];
      assert r[..|r| - 1] == p;
      assert |p| == 1 ==> ValueOf(p) == DigitValue(p[0]);
      r
  }

  /** Distinct numbers have distinct decimal renderings. */
  lemma NatToStringInjective(a: nat, b: nat)
    requires NatToString(a) == NatToString(b)
    ensures a == b
  {
  }

  /** `s.padStart(2, '0')`: pads with zeros on the left up to two characters. */
  function PadStart2(s: string): (r: string)
    ensures |r| == if |s| >= 2 then |s| else 2
    ensures r[|r| - |s|..] == s
    ensures AllDigits(s) ==> AllDigits(r) && ValueOf(r) == ValueOf(s)
  {
    if |s| >= 2 then s
    else if |s| == 1 then
      var r := "0" + s;
      assert r[..1] == "0";
      r
    else "00"
  }
}
